=== FILE: README.md ===
# Outfit recommender: a Dafny model of the request pipeline

The outfit recommender is a Flask service. It takes an outfit photo and a question through
`POST /analyze` and passes them through a fixed chain of four agents:
- vision analysis;
- trend lookup;
- styling advice;
- outfit image generation.

It answers with one JSON object. Every agent wraps an AI model call and never raises: on
failure it writes fallback values and moves on. Each agent writes two entries to a shared,
append-only agent log.

This project models the deterministic logic around those model calls. Every Gemini or DSPy
call is a function-valued parameter that returns `Ok(payload)` or `Fail(msg)`. The model
covers:

- **Request gate** (`Analyze`). It models:
  - the extension check;
  - the order of validation errors;
  - the default query;
  - the inclusive 10 MiB limit;
  - mode normalisation;
  - the initial state;
  - the response: status, body and its JSON form.
- **Agents.** `MultiModel.AnalyzeImage`, `Trending.FetchTrends`, `Analysis.SynthesizeAdvice` and `MultiModel.GenerateOutfit`. Each is a pure function from a state to a partial update holding only the keys the Python function returns.
- **Image generation** (`MultiModel`). It models:
  - the order of the messages sent to the image model;
  - the scan of response parts, candidates first, first hit wins;
  - the `data:<mime>;base64,<payload>` URL. The payload is built by a base64 encoder written after section 4 of RFC 4648 (`Base64`), and is proved to decode back to the image bytes.
- **Agent log** (`AgentLogs`). It models `append_agent_log`: exactly one entry is appended, and only `agent_logs` changes. Details are stored as `json.dumps` text (`Json`) cut to 800 characters, or as the string itself.
- **Supervisor graph** (`Supervisor`). It has four nodes on one path to END. A run over any node functions that meet the per-stage contract writes every stage output once and appends eight log entries, two per stage, in stage order. The concrete graph meets that contract.
- **Language-model cache** (`Config`). `configure_lm` is a state machine over `_current_mode`. It installs a model only when the normalised mode changes.

The state dict is the record `AgentState.State`, with one `Option` per key. `None` means
the key is absent. LangGraph's merge of a stage update is `AgentState.Merge`: every key the
update carries replaces the current value. The wall clock is the parameter `clock`, which
gives the timestamp for each log position.

## Behaviour of the code worth knowing

The model follows the code, including these points:

- Quick mode does not skip the trend agent. The graph has no conditional edge, so trends run in every mode (`Supervisor.TrendsInEveryMode`).
- No failed stage leaves its field missing. Failed vision gives five `"unknown"` features plus an `error` key, and every other stage writes fallback text.
- The response has eight keys, including `agent_logs`.
- The query defaults only when the form field is absent. An empty query is kept as `""`.
- The advice agent reads a missing trend summary as `""`.
- There is no per-stage error list. A failure shows up in three places: the `error` key of `visual_analysis` when vision fails (`backend/app/agents/multi_model.py:119-126`), `image_generation_error` when generation fails, and the log entries of every stage.
- The initial state holds `generated_image_url` and `generation_prompt` as `""`, not as absent keys.
- `Json` values keep the keys in the order the handler inserts them. The app is a plain `Flask(__name__)` (`backend/app/main.py:25`), whose default JSON provider sorts keys, so the served text lists every object's keys sorted. The details text inside a log entry comes from `json.dumps` without sorting and keeps its order.

## Model

| member | source | states |
|---|---|---|
| Analyze.AfterLastDot | backend/app/routers/analyze.py:31 | `rsplit(".", 1)[1]` is the text after whichever dot has no dot after it |
| Analyze.AllowedFile | backend/app/routers/analyze.py:22-31 | a file name is allowed iff it has a last dot and the text after it, lower-cased, is png, jpg, jpeg, gif or webp (both directions, against a definition by positions) |
| Analyze.AllowedFileAccepts | backend/app/routers/analyze.py:18-31 | "look.JPG", "a.b.webp" and ".png" are allowed: case is ignored and only the last extension counts |
| Analyze.AllowedFileRefuses | backend/app/routers/analyze.py:18-31 | "png" (no dot), "look.png.exe" (wrong last extension) and "x." (empty extension) are refused |
| Analyze.WrittenOrderListsAllowed | backend/app/routers/analyze.py:18 | the extensions in the order ALLOWED_EXTENSIONS is written form one listing of the set, each exactly once, so the listing the error message requires exists |
| Analyze.ValidateRequest | backend/app/routers/analyze.py:34-58 | for any listing of the allowed extensions, validation succeeds iff there is an image with a non-empty, allowed name. Errors come in a fixed order: missing image, then empty name, then bad type. The query is the field's value whenever the field is present, even when empty, and the default only when the field is absent |
| Analyze.RequestMode | backend/app/routers/analyze.py:107-109 | the mode is always "quick" or "deep". It is "quick" exactly when the lower-cased field is "quick", so an absent or unknown mode gives "deep" |
| Analyze.RequestModeAgreesWithConfig | backend/app/routers/analyze.py:107-111 | the handler normalises a mode the same way configure_lm does. configure_lm keeps the handler's mode unchanged, so the cached mode is the response's mode |
| Analyze.KelvinSignSelectsQuick | backend/app/routers/analyze.py:107 | str.lower turns the Kelvin sign into 'k', so "QUIC" followed by U+212A selects quick mode |
| Analyze.InitialState | backend/app/routers/analyze.py:115-126 | the initial state holds all ten schema keys: the request's image, query and mode, an empty analysis, empty texts, an empty log and a null image error; it holds exactly the ten keys and no others |
| Analyze.HandleRequest | backend/app/routers/analyze.py:62-149 | the status is 400 exactly for a validation error or an upload over the limit, 500 exactly when reading the upload fails (with that error as details), and 200 otherwise. An upload over the limit gets the "File size exceeds 10MB limit" body. Only a 200 changes the model cache; its cache is what configure_lm leaves for the request's mode, and its result is the graph run on the initial state |
| Analyze.SizeLimitBoundary | backend/app/routers/analyze.py:101-103 | an upload of exactly 10·1024·1024 bytes is processed; one byte more is refused with "File size exceeds 10MB limit" |
| Analyze.EntryJson | backend/app/utils/logs.py:37-48 | a log entry becomes an object with agent, message, level and timestamp, in the order the entry dict is built, then a details key exactly when details were given |
| Analyze.BodyJson | backend/app/routers/analyze.py:133-149 | a success body has exactly the eight response keys, in the order response_data is built, and never original_image. Each value is the result's own: the analysis, the trend summary, the report, the image URL, the rendered prompt and the image error (null when missing). Its agent_logs is the log as an array, and its analysis_mode is the handler's mode, not one read back from the result. Error bodies are {"error"} or {"error", "details"} |
| Analyze.ServedAnalysis | backend/app/routers/analyze.py:115-145 | with the real graph, a request that passes the checks is answered 200 whatever the model calls do. The result keeps the request's query and mode, the log holds exactly the eight stage entries in graph order, and exactly one of image URL and image error is set |
| Analyze.AnalysisBodyJson | backend/app/routers/analyze.py:133-145 | a result with the eight stage entries serialises its agent_logs as eight objects, each naming its stage's agent first |
| Analyze.ServedJson | backend/app/routers/analyze.py:133-145 | the JSON value of a valid request's response has the eight keys, an eight-entry agent_logs array in graph order, and the request's mode; generated_image_url is null exactly when image_generation_error is not |
| Config.NormalizeMode | backend/app/agents/config.py:31-33 | the result is a key of LM_MAP. It is "quick" exactly for a string that lower-cases to "quick"; a non-string gives "deep" |
| Config.ConfigureLm | backend/app/agents/config.py:27-43 | the result is LM_MAP of the normalised mode, so one of the two model names. Afterwards the cache holds the normalised mode. A call with the cached mode changes nothing; any other call installs exactly one model |
| Config.FirstCallInstalls | backend/app/agents/config.py:24-43 | the process starts with no mode cached, which is consistent, so the first call installs exactly the model it returns |
| Config.ConfigurePreservesConsistency | backend/app/agents/config.py:35-42 | if the cached mode matches the last model installed, that still holds after a call, and the last model installed is the one the call returns |
| Config.RepeatedModeInstallsAtMostOnce | backend/app/agents/config.py:35-42 | calls whose modes normalise alike install at most one model between them, and leave that mode cached |
| AgentLogs.RenderDetails | backend/app/utils/logs.py:44-48 | details are absent iff none were given. A dict or list is stored as its JSON text, cut to at most 800 characters, and whole when it fits. A string is stored unchanged |
| AgentLogs.AppendAgentLog | backend/app/utils/logs.py:10-51 | exactly one entry is appended and the earlier entries are unchanged; a missing log starts empty. The entry has the given agent, message, level, details and the clock's timestamp. No other key changes |
| Json.Dumps | backend/app/utils/logs.py:46 | json.dumps with ensure_ascii gives non-empty printable ASCII |
| AgentState.Lookup | backend/app/agents/trending.py:32-33 | dict.get gives the default when the key is absent and the stored value when present |
| AgentState.Merge | backend/app/agents/supervisor.py:28 | after merging a stage update, a key is present iff it was present before or the update carries it. A key the update carries takes the update's value, and every other key keeps its value |
| AgentState.LookupAt | backend/app/agents/trending.py:32-33 | dict.get of a key finds the value stored at its first occurrence, whatever the default |
| AgentState.KeyNamesDistinct | backend/app/agents/state.py:32-41 | the ten schema keys have ten distinct names |
| Base64.Encode | backend/app/agents/multi_model.py:298 | the encoding has 4·⌈n/3⌉ characters, all from the alphabet or '=' |
| Base64.DecodeEncode | backend/app/agents/multi_model.py:298 | decoding the encoding of any bytes gives them back |
| Base64.EncodeInjective | backend/app/agents/multi_model.py:298 | two byte strings with the same encoding are equal |
| MultiModel.VisionModel | backend/app/agents/multi_model.py:56-57 | quick selects gemini-2.5-flash; every other mode, including unknown ones, selects gemini-2.5-pro; the result is always a VISION_MODELS value |
| MultiModel.VisionOutcome | backend/app/agents/multi_model.py:56-97 | a state without original_image fails with the KeyError text. Otherwise the vision call gets the VISION_MODELS model for the state's mode, the image bytes and the query, or "" when the query is missing |
| MultiModel.FeaturePairsLookup | backend/app/agents/multi_model.py:99-105 | reading each of the five feature keys from the analysis dict gives the matching field of the prediction |
| MultiModel.FeatureDict | backend/app/agents/multi_model.py:99-105 | a successful analysis has exactly the keys gender_style, cut, color, fabric and occasion, in that order, and each key reads back as the prediction's field of that name, whatever the default |
| MultiModel.UnknownDict | backend/app/agents/multi_model.py:119-126 | a failed analysis has the five feature keys, all "unknown", then error set to the message |
| MultiModel.UnknownLookup | backend/app/agents/multi_model.py:119-124 | a later stage reading any feature of a failed analysis gets "unknown", whatever its default |
| MultiModel.AnalyzeImage | backend/app/agents/multi_model.py:40-135 | the update holds only visual_analysis and agent_logs. On success the analysis is the five features and two info entries are added. On failure the analysis is the unknown dict carrying the message, and the second entry has level error with the message as details. The first entry's details are the mode and the vision model it selects |
| MultiModel.ImageMessages | backend/app/agents/multi_model.py:266-279 | messages are: the instruction; then the advice only if non-empty; then the prompt; then the reference image iff it is non-empty and loads |
| MultiModel.SentTexts | backend/app/agents/multi_model.py:266-275 | the first message is the fixed instruction, the advice message is the guidance heading followed by the whole advice, the prompt message is the rendered prompt, and only the reference image carries no text |
| MultiModel.PartYield | backend/app/agents/multi_model.py:326-348 | a part yields nothing iff it has neither usable inline data nor usable file data. Inline data wins over file data. Inline bytes are yielded as they are, and inline text as its base64 decoding, even when that decoding is empty. Text that fails to decode falls through to the file data, which yields the download of its URI with the file's mime type |
| MultiModel.FirstYield | backend/app/agents/multi_model.py:325-350 | nothing is found iff no part yields. Otherwise the result is the yield of a part such that no earlier part yields |
| MultiModel.FirstYieldConcat | backend/app/agents/multi_model.py:314-325 | scanning a concatenation scans the first list completely before the second |
| MultiModel.ExtractImageBytes | backend/app/agents/multi_model.py:307-350 | a falsy response gives nothing. Otherwise the candidates' parts are scanned before the response's own parts, and the first yield wins |
| MultiModel.MimeOrDefault | backend/app/agents/multi_model.py:299 | a missing or empty mime type becomes image/png; a given one is kept |
| MultiModel.DataUrl | backend/app/agents/multi_model.py:298-300 | the URL starts with `data:<mime>;base64,`, and its payload decodes back to the image bytes |
| MultiModel.GenerateImage | backend/app/agents/multi_model.py:247-304 | the call goes to IMAGE_MODEL with the message list. A URL is returned iff the call succeeds and the scan finds non-empty bytes. It is the data URL of those bytes with the defaulted mime type, returned together with that mime type |
| MultiModel.OutfitLine | backend/app/agents/multi_model.py:175 | the Outfit line is "Professional outfit" for empty advice; otherwise it is the longest dot-free prefix of the advice, ending at its first '.' |
| MultiModel.GenerationPrompt | backend/app/agents/multi_model.py:168-180 | each prompt field is the visual value when the key is present and the template default otherwise. An empty query becomes the default request |
| MultiModel.RenderPrompt | backend/app/agents/multi_model.py:173-186 | the prompt text starts with the heading and the Outfit, Style, Colors, Fabric, Occasion and Personal request lines, each with its value, and ends with the fixed closing lines; nothing else is in between |
| MultiModel.PromptOf | backend/app/agents/multi_model.py:168-186 | the report fills the Outfit line, the analysis fills style, colors, fabric and occasion, with a present key giving its value and an absent one the template default, and the query fills the personal request unless it is missing or empty |
| MultiModel.GenerateOutfit | backend/app/agents/multi_model.py:138-244 | the update holds exactly url, prompt, error and logs, and exactly one of url and error is null. The prompt is always built from the state. The image request gets that prompt, original_image as the reference and final_report as the advice. A generated image gives its data URL and two info entries. No image gives the no-content error and a warning entry without details |
| Trending.InputsOf | backend/app/agents/trending.py:29-33 | gender_style and occasion are read from the analysis with defaults "unisex" and "casual": a present key gives its stored value, an absent key or a missing analysis gives the default. The query is the stored one, or "" when missing |
| Trending.Fallback | backend/app/agents/trending.py:73-77 | the fallback sentence names the outfit's gender style and occasion |
| Trending.FetchTrends | backend/app/agents/trending.py:13-86 | the update holds only trend_summary and agent_logs. On success it is the generator's summary and the second entry is info with the summary cut to 300 characters. On failure it is the fallback sentence and the second entry is a warning with the message |
| Trending.ModeOnlyReachesDetails | backend/app/agents/trending.py:45 | changing the analysis mode changes nothing but the first entry's details |
| Analysis.RequestOf | backend/app/agents/analysis.py:58-79 | each feature is read from the analysis dict: a present key gives its stored value, and an absent key gives its default (unisex, unknown, unknown, unknown, casual). A present trend summary and query are passed on as they are; missing ones read as "" |
| Analysis.SynthesizeAdvice | backend/app/agents/analysis.py:29-106 | the update holds only final_report and agent_logs. On success it is the advisor's text and the second entry is info with the advice cut to 300 characters. On failure it is the fixed apology and the second entry is an error with the message |
| Supervisor.StepsToEnd | backend/app/agents/supervisor.py:37-41 | every node is at most four edges from END, and only END is zero edges away |
| Supervisor.EdgeApproachesEnd | backend/app/agents/supervisor.py:38-41 | every edge brings the run one step closer to END, so the graph has no cycle |
| Supervisor.GraphIsLinear | backend/app/agents/supervisor.py:31-41 | the run from the entry point, analyze_image, visits the nodes named analyze_image, fetch_trends, synthesize_advice, generate_outfit in that order. Only generate_outfit leads to END, and every stage is on the path |
| Supervisor.RunFromEntry | backend/app/agents/supervisor.py:37-41 | running the graph with any node functions is the composition of the four stage merges, in order |
| Supervisor.RunFields | backend/app/agents/supervisor.py:31-41 | after a run, each output key holds its one writer's value, and the request's image, query and mode are unchanged |
| Supervisor.RunKeys | backend/app/agents/supervisor.py:31-41 | after a run, a key is present iff it was present before or some stage writes it |
| Supervisor.RunLogs | backend/app/agents/supervisor.py:31-41 | a run keeps the earlier log and appends exactly eight entries, two per stage in stage order. The first entry of each pair has level info |
| Supervisor.VisionConforms | backend/app/agents/supervisor.py:31 | the analyze_image node runs AnalyzeImage, and AnalyzeImage meets the stage contract |
| Supervisor.TrendsConform | backend/app/agents/supervisor.py:32 | the fetch_trends node runs FetchTrends, and FetchTrends meets the stage contract |
| Supervisor.AdviceConforms | backend/app/agents/supervisor.py:33 | the synthesize_advice node runs SynthesizeAdvice, and SynthesizeAdvice meets the stage contract |
| Supervisor.GeneratorConforms | backend/app/agents/supervisor.py:34 | the generate_outfit node runs GenerateOutfit, and GenerateOutfit meets the stage contract |
| Supervisor.NodesConform | backend/app/agents/supervisor.py:31-34 | all four registered node functions meet the stage contract |
| Supervisor.InvokeOutcome | backend/app/agents/supervisor.py:31-44 | agent_graph.invoke never writes the inputs. Each output is what its agent computed on the state it was given. Exactly one of url and error is set |
| Supervisor.InvokeLogs | backend/app/agents/supervisor.py:31-41 | invoke appends eight entries: vision, vision, trends, trends, advisor, advisor, generator, generator |
| Supervisor.InvokeSummary | backend/app/agents/supervisor.py:31-41 | invoke keeps query and mode, appends the eight entries in stage order, and sets exactly one of url and error |
| Supervisor.InvokeKeys | backend/app/agents/supervisor.py:31-41 | after invoke, a key is present iff it was given or some stage writes it |
| Supervisor.TrendsInEveryMode | backend/app/agents/supervisor.py:38-39 | in every mode, the trend summary is the generator's answer for the post-vision inputs, or the fallback for them |
| Supervisor.FailedVisionAndTrends | backend/app/agents/trending.py:29-77 | when vision and trends both fail, the analysis is the unknown dict, and the summary is the fallback for an "unknown unknown" outfit |
| Supervisor.FailedGeneration | backend/app/agents/multi_model.py:210-217 | when the image call fails, the URL is null and the error is "Gemini image generation returned no content" |
| Supervisor.AllCallsFail | backend/app/agents/supervisor.py:31-41 | when every model call fails, the run still completes with the unknown analysis, the fallback trends, the fixed apology and the no-content error |

## Left out

- Gemini, DSPy, PIL, the Files API download, `base64.b64decode` of inline text and the DSPy signatures are external. They are parameters of the model: `Outcome`-valued calls and plain functions.
- `MultiModel.GenerateOutfit`: the `except` branch of `generate_outfit` is not modelled. In the model nothing inside its `try` can raise, because `_generate_image_from_gemini` catches its own errors. So the prompt is always built, and `generation_prompt` is never `""` on return.
- `Analyze.HandleRequest`: only a failing `file.read()` is modelled as a 500. Two other 500 paths are dropped:
  - `configure_lm` runs inside the handler's `try`, so an exception from its `dspy.LM` construction or `dspy.configure` would be answered 500. The model treats those library calls as total, because they are external code this model does not contain.
  - An exception from the graph would also be answered 500. Every stage catches its own errors, so the graph raises none.
- `Analyze.InvalidTypeError`: the order in which Python's set lists the allowed extensions is a parameter, `extOrder`, required to list every allowed extension exactly once (`Analyze.ListsAllowedExtensions`). Which such order CPython picks depends on string hashing and is not part of the language.
- `Text.LowerChar`: the model lowers ASCII letters and the Kelvin sign. The other non-ASCII characters that `str.lower` changes never lower to an ASCII word, so no comparison in the model depends on them.
- `Json.Dumps` serialises only null, booleans, strings, arrays and objects. Those are the only values that reach it here; numbers and floats never do.
- `AgentLogs.RenderDetails`: `str(details)` is modelled only for string details. Every non-None, non-container details argument in the system is a string.
- `Analyze.BodyJson`: Flask's default JSON provider sorts the keys of every object it serves. The model gives keys in insertion order and does not model the sorting, so the served text's key order is not stated.
- Log timestamps come from the `clock` parameter. Their ISO-8601 formatting is not modelled.
- Thread safety of `_current_mode`, Python `logging`, Flask and CORS plumbing, `main.py`, `run.py`, the health check and `generate_graph.py` are not part of this model.
- LangGraph's own engine is modelled only as sequential composition with last-value merge (`AgentState.Merge`).
- `generation_prompt` is held as the six values its template fills in (`AgentState.Prompt`). `MultiModel.RenderPrompt` gives its text.

=== FILE: analysis.dfy ===
/** synthesize_advice: the advice stage. The advisor is an oracle; a failure is
    replaced by a fixed apology. */
module Analysis {
  import opened Wrappers
  import opened Text
  import opened Json
  import opened AgentState
  import opened AgentLogs

  /** What the advisor is given. */
  datatype AdviceRequest = AdviceRequest(
    userQuery: string, genderStyle: string, cut: string, color: string, fabric: string, occasion: string, trends: string)

  type AdviceCall = AdviceRequest -> Outcome<string>

  /** The advisor's request: missing visual_analysis, trend_summary and user_query read
      as {}, "" and ""; missing visual fields as "unisex", "unknown", "unknown",
      "unknown" and "casual". */
  function RequestOf(s: State): (r: AdviceRequest)
    ensures var visual := s.visualAnalysis.GetOr([]);
      && GetsOr(visual, "gender_style", "unisex", r.genderStyle)
      && GetsOr(visual, "cut", "unknown", r.cut)
      && GetsOr(visual, "color", "unknown", r.color)
      && GetsOr(visual, "fabric", "unknown", r.fabric)
      && GetsOr(visual, "occasion", "casual", r.occasion)
    ensures s.trendSummary.None? ==> r.trends == ""
    ensures s.trendSummary.Some? ==> r.trends == s.trendSummary.value
    ensures s.userQuery.None? ==> r.userQuery == ""
    ensures s.userQuery.Some? ==> r.userQuery == s.userQuery.value
  {
    var visual := s.visualAnalysis.GetOr([]);
    AdviceRequest(
      s.userQuery.GetOr(""),
      Lookup(visual, "gender_style", "unisex"),
      Lookup(visual, "cut", "unknown"),
      Lookup(visual, "color", "unknown"),
      Lookup(visual, "fabric", "unknown"),
      Lookup(visual, "occasion", "casual"),
      s.trendSummary.GetOr(""))
  }

  const FallbackAdvice := "Unable to generate personalized advice at this time. Please try again later or consult with a fashion professional."

  /** How many characters of the advice go into the log. */
  const AdviceLogLimit := 300

  function SynthesizeAdvice(s: State, call: AdviceCall, clock: Clock): (u: State)
    ensures u == NoKeys.(finalReport := u.finalReport, agentLogs := u.agentLogs)
    ensures u.finalReport.Some? && u.agentLogs.Some?
    ensures match call(RequestOf(s))
      case Ok(advice) =>
        && u.finalReport == Some(advice)
        && AppendsPair(Logs(s), Logs(u), "advisor", "info", "info")
        && Logs(u)[|Logs(s)| + 1].details == TextDetails(Take(advice, AdviceLogLimit))
      case Fail(msg) =>
        && u.finalReport == Some(FallbackAdvice)
        && AppendsPair(Logs(s), Logs(u), "advisor", "info", "error")
        && Logs(u)[|Logs(s)| + 1].details == TextDetails(msg)
  {
    var s1 := AppendAgentLog(s, "advisor", "Generating styling advice", DefaultLevel, DictDetails([("mode", JString(ModeOf(s)))]), clock);
    var request := RequestOf(s1);
    var (advice, s2) :=
      match call(request)
      case Ok(advice) =>
        (advice, AppendAgentLog(s1, "advisor", "Completed styling advice", DefaultLevel, TextDetails(Take(advice, AdviceLogLimit)), clock))
      case Fail(msg) =>
        (FallbackAdvice, AppendAgentLog(s1, "advisor", "Failed to generate styling advice", "error", TextDetails(msg), clock));
    NoKeys.(finalReport := Some(advice), agentLogs := s2.agentLogs)
  }

}

=== FILE: analyze.dfy ===
/** The /analyze endpoint: request validation, the size limit, the analysis mode, the
    initial state, the graph run and the response. The graph is a parameter of
    HandleRequest; Serve binds it to the supervisor's graph. */
module Analyze {
  import opened Wrappers
  import opened Text
  import opened Json
  import opened AgentState
  import opened AgentLogs
  import Config
  import MultiModel
  import Supervisor

  const MaxFileSize := 10 * 1024 * 1024
  const AllowedExtensions: set<string> := {"png", "jpg", "jpeg", "gif", "webp"}
  const DefaultQuery := "What should I wear for a wedding?"

  /** s[i] is the last dot of s. */
  predicate IsLastDot(s: string, i: int) {
    0 <= i < |s| && s[i] == '.' && '.' !in s[i + 1..]
  }

  /** The text after the last dot is what follows any dot with no dot after it. */
  lemma AfterLastDot(s: string, i: int)
    requires IsLastDot(s, i)
    ensures AfterLast(s, '.') == s[i + 1..]
  {
    var r := AfterLast(s, '.');
    var j := |s| - |r|;
    forall k | j <= k < |s| ensures s[k] != '.' {
      assert s[k] == r[k - j];
    }
    forall k | i < k < |s| ensures s[k] != '.' {
      assert s[k] == s[i + 1..][k - i - 1];
    }
    assert s[j - 1] == '.';
  }

  /** _allowed_file: the file name has a dot, and the text after its last dot,
      lower-cased, is an allowed extension. */
  function AllowedFile(filename: string): (ok: bool)
    ensures ok <==> exists i :: IsLastDot(filename, i) && Lower(filename[i + 1..]) in AllowedExtensions
  {
    if '.' in filename then
      var r := AfterLast(filename, '.');
      assert IsLastDot(filename, |filename| - |r| - 1);
      forall i | IsLastDot(filename, i) ensures filename[i + 1..] == r {
        AfterLastDot(filename, i);
      }
      Lower(r) in AllowedExtensions
    else
      assert forall i :: 0 <= i < |filename| ==> filename[i] != '.';
      false
  }

  /** Extensions are matched case-insensitively, after the last dot only. */
  lemma AllowedFileAccepts()
    ensures AllowedFile("look.JPG") && AllowedFile("a.b.webp") && AllowedFile(".png")
  {
    assert IsLastDot(".png", 0) && Lower("png") == "png";
    assert IsLastDot("look.JPG", 4) && Lower("JPG") == "jpg";
    assert IsLastDot("a.b.webp", 3) && Lower("webp") == "webp";
  }

  /** A name without a dot, with a disallowed last extension, or ending in a dot is refused. */
  lemma AllowedFileRefuses()
    ensures !AllowedFile("png") && !AllowedFile("look.png.exe") && !AllowedFile("x.")
  {
    assert IsLastDot("look.png.exe", 8) && |Lower("exe")| == 3 && Lower("exe")[0] == 'e';
    assert IsLastDot("x.", 1) && Lower("") == "";
    assert "png"[0] != '.' && "png"[1] != '.' && "png"[2] != '.';
  }

  /** The uploaded file: its name, and what reading it gives (the bytes, or the text
      of the exception file.read() raises). */
  datatype Upload = Upload(filename: string, content: Outcome<Bytes>)

  /** The request fields the endpoint reads; None for an absent field. */
  datatype Request = Request(image: Option<Upload>, query: Option<string>, mode: Option<string>)

  const NoImageError := "No image file provided"
  const NoFileError := "No file selected"
  const TooLargeError := "File size exceeds 10MB limit"
  const ServerError := "Internal server error"

  /** An iteration order of ALLOWED_EXTENSIONS: each allowed extension exactly once. */
  predicate ListsAllowedExtensions(order: seq<string>) {
    && (forall i, j :: 0 <= i < j < |order| ==> order[i] != order[j])
    && (forall e :: e in order ==> e in AllowedExtensions)
    && (forall e :: e in AllowedExtensions ==> e in order)
  }

  /** The order the set is written in is one such order; which one Python's set
      iteration gives is left to the caller. */
  lemma WrittenOrderListsAllowed()
    ensures ListsAllowedExtensions(["png", "jpg", "jpeg", "gif", "webp"])
  {
  }

  /** The invalid-type message lists the allowed extensions in the order Python's set
      iteration gives them, which is extOrder here. */
  function InvalidTypeError(extOrder: seq<string>): string
    requires ListsAllowedExtensions(extOrder)
  {
    "Invalid file type. Allowed: " + Join(extOrder, ", ")
  }

  datatype Validated = Validated(upload: Upload, userQuery: string)

  /** _validate_request: the image field must be present, its file name non-empty and
      of an allowed type, checked in that order; the query defaults only when the
      field is absent. */
  function ValidateRequest(req: Request, extOrder: seq<string>): (r: Result<Validated, string>)
    requires ListsAllowedExtensions(extOrder)
    ensures r.Success? <==> req.image.Some? && req.image.value.filename != "" && AllowedFile(req.image.value.filename)
    ensures r.Success? ==> r.value.upload == req.image.value
    ensures r.Success? ==> (req.query.Some? ==> r.value.userQuery == req.query.value) && (req.query.None? ==> r.value.userQuery == DefaultQuery)
    ensures req.image.None? ==> r == Failure(NoImageError)
    ensures req.image.Some? && req.image.value.filename == "" ==> r == Failure(NoFileError)
    ensures req.image.Some? && req.image.value.filename != "" && !AllowedFile(req.image.value.filename) ==> r == Failure(InvalidTypeError(extOrder))
  {
    if req.image.None? then Failure(NoImageError)
    else if req.image.value.filename == "" then Failure(NoFileError)
    else if !AllowedFile(req.image.value.filename) then Failure(InvalidTypeError(extOrder))
    else Success(Validated(req.image.value, req.query.GetOr(DefaultQuery)))
  }

  /** request.form.get("mode", "deep").lower(), kept when it is "quick" or "deep" and
      "deep" otherwise. */
  function RequestMode(mode: Option<string>): (r: string)
    ensures r == "quick" || r == "deep"
    ensures r == "quick" <==> mode.Some? && Lower(mode.value) == "quick"
  {
    var lowered := Lower(mode.GetOr("deep"));
    if lowered == "quick" || lowered == "deep" then lowered else "deep"
  }

  /** The endpoint's normalisation agrees with configure_lm's, and configure_lm keeps
      the mode the endpoint passes it: the cached mode is the mode of the response. */
  lemma RequestModeAgreesWithConfig(mode: Option<string>)
    ensures mode.Some? ==> RequestMode(mode) == Config.NormalizeMode(Config.ModeText(mode.value))
    ensures Config.NormalizeMode(Config.ModeText(RequestMode(mode))) == RequestMode(mode)
  {
    var r := RequestMode(mode);
    assert Lower(r) == r by {
      assert forall i :: 0 <= i < |r| ==> 'a' <= r[i] <= 'z';
    }
    if mode.Some? {
      var n := Config.NormalizeMode(Config.ModeText(mode.value));
      assert n == "quick" || n == "deep";
    }
  }

  /** str.lower maps the Kelvin sign to 'k', so this spelling selects quick mode. */
  lemma KelvinSignSelectsQuick()
    ensures RequestMode(Some("QUIC\U{212A}")) == "quick"
  {
    assert Lower("QUIC\U{212A}") == "quick";
  }

  /** The state the graph is started with: every key present, the image and query from
      the request, an empty analysis, empty texts, an empty log, no image error and the
      request's mode. */
  function InitialState(image: Bytes, query: string, mode: string): (s: State)
    ensures HasExactly(s, AllKeys)
    ensures s.originalImage == Some(image) && s.userQuery == Some(query) && s.analysisMode == Some(mode)
    ensures Logs(s) == [] && s.agentLogs.Some?
    ensures s.visualAnalysis == Some([]) && s.trendSummary == Some("") && s.finalReport == Some("")
    ensures s.generatedImageUrl == Some(Some("")) && s.generationPrompt == Some(PlainPrompt("")) && s.imageGenerationError == Some(None)
  {
    State(Some(image), Some(query), Some([]), Some(""), Some(""), Some(Some("")), Some(PlainPrompt("")), Some([]), Some(mode), Some(None))
  }

  /** What the endpoint returns, before serialisation. */
  datatype Body =
    | ErrorBody(error: string)
    | ServerErrorBody(details: string)
    | AnalysisBody(result: State, mode: string)

  datatype Response = Response(status: int, body: Body)

  /** A response together with the language-model cache it leaves. */
  datatype Handled = Handled(response: Response, cache: Config.LmCache)

  /** analyze_outfit, with the compiled graph as graph. */
  function HandleRequest(req: Request, cache: Config.LmCache, extOrder: seq<string>, graph: State -> State): (h: Handled)
    requires ListsAllowedExtensions(extOrder)
    ensures var v := ValidateRequest(req, extOrder);
      && (h.response.status == 400 <==>
        v.Failure? || (v.value.upload.content.Ok? && |v.value.upload.content.payload| > MaxFileSize))
      && (h.response.status == 500 <==> v.Success? && v.value.upload.content.Fail?)
      && (h.response.status == 500 ==> h.response.body == ServerErrorBody(v.value.upload.content.msg))
      && (v.Failure? ==> h.response.body == ErrorBody(v.error))
      && (v.Success? && v.value.upload.content.Ok? && |v.value.upload.content.payload| > MaxFileSize ==>
            h.response.body == ErrorBody(TooLargeError))
    ensures h.response.status == 200 || h.response.status == 400 || h.response.status == 500
    ensures h.response.status != 200 ==> h.cache == cache && !h.response.body.AnalysisBody?
    ensures h.response.status == 200 ==>
      var mode := RequestMode(req.mode);
      && h.response.body.AnalysisBody? && h.response.body.mode == mode
      && h.cache == Config.ConfigureLm(cache, Config.ModeText(mode)).cache
      && h.cache.currentMode == Some(mode)
      && h.response.body.result == graph(InitialState(req.image.value.content.payload, req.query.GetOr(DefaultQuery), mode))
  {
    match ValidateRequest(req, extOrder)
    case Failure(e) => Handled(Response(400, ErrorBody(e)), cache)
    case Success(v) =>
      match v.upload.content
      case Fail(msg) => Handled(Response(500, ServerErrorBody(msg)), cache)
      case Ok(image) =>
        if |image| > MaxFileSize then Handled(Response(400, ErrorBody(TooLargeError)), cache)
        else
          var mode := RequestMode(req.mode);
          RequestModeAgreesWithConfig(req.mode);
          var configured := Config.ConfigureLm(cache, Config.ModeText(mode));
          var result := graph(InitialState(image, v.userQuery, mode));
          Handled(Response(200, AnalysisBody(result, mode)), configured.cache)
  }

  /** The size limit is inclusive: a valid upload of exactly MaxFileSize bytes is
      processed, one byte more is refused. */
  lemma SizeLimitBoundary(name: string, query: Option<string>, mode: Option<string>, image: Bytes,
                          cache: Config.LmCache, extOrder: seq<string>, graph: State -> State)
    requires ListsAllowedExtensions(extOrder)
    requires name != "" && AllowedFile(name)
    ensures |image| == MaxFileSize ==>
      HandleRequest(Request(Some(Upload(name, Ok(image))), query, mode), cache, extOrder, graph).response.status == 200
    ensures |image| == MaxFileSize + 1 ==>
      HandleRequest(Request(Some(Upload(name, Ok(image))), query, mode), cache, extOrder, graph).response == Response(400, ErrorBody(TooLargeError))
  {
  }

  /** A value read with result.get: an absent key is None, which jsonify writes as null. */
  function TextJson(v: Option<string>): Json {
    if v.Some? then JString(v.value) else JNull
  }

  function NullableJson(v: Option<Nullable>): Json {
    if v.Some? then TextJson(v.value) else JNull
  }

  function AnalysisJson(v: Option<Dict>): Json {
    if v.Some? then JObject(MultiModel.StringMembers(v.value)) else JNull
  }

  /** The generation prompt as the response carries it: the generator's prompt as text. */
  function PromptJson(v: Option<PromptValue>): Json {
    match v
    case None => JNull
    case Some(PlainPrompt(text)) => JString(text)
    case Some(FilledPrompt(fields)) => JString(MultiModel.RenderPrompt(fields))
  }

  /** One agent_logs entry as a JSON object: agent, message, level and timestamp, then
      details exactly when the entry was given details. */
  function EntryJson(e: LogEntry): (j: Json)
    ensures j.JObject?
    ensures KeysOf(j.members) == ["agent", "message", "level", "timestamp"] + (if e.details.NoDetails? then [] else ["details"])
    ensures j.members[0].1 == JString(e.agent) && j.members[1].1 == JString(e.message)
    ensures j.members[2].1 == JString(e.level) && j.members[3].1 == JString(e.timestamp)
    ensures !e.details.NoDetails? ==> j.members[4].1 == JString(StoredDetails(e).value)
  {
    var fields := [("agent", JString(e.agent)), ("message", JString(e.message)), ("level", JString(e.level)), ("timestamp", JString(e.timestamp))];
    match StoredDetails(e)
    case None => JObject(fields)
    case Some(d) => JObject(fields + [("details", JString(d))])
  }

  function LogsJson(logs: seq<LogEntry>): (r: seq<Json>)
    ensures |r| == |logs| && forall i :: 0 <= i < |logs| ==> r[i] == EntryJson(logs[i])
  {
    seq(|logs|, i requires 0 <= i < |logs| => EntryJson(logs[i]))
  }

  /** The keys of a successful response, in the order the handler writes them. */
  const ResponseKeys := ["visual_analysis", "trend_summary", "final_report", "generated_image_url",
                         "agent_logs", "analysis_mode", "generation_prompt", "image_generation_error"]

  /** The JSON body of a response. A successful body has the eight response keys and
      never the uploaded image bytes; its analysis_mode is the handler's own mode. */
  function BodyJson(b: Body): (j: Json)
    ensures j.JObject?
    ensures b.ErrorBody? ==> j.members == [("error", JString(b.error))]
    ensures b.ServerErrorBody? ==> j.members == [("error", JString(ServerError)), ("details", JString(b.details))]
    ensures b.AnalysisBody? ==> KeysOf(j.members) == ResponseKeys && "original_image" !in KeysOf(j.members)
    ensures b.AnalysisBody? ==> j.members[4].1 == JArray(LogsJson(Logs(b.result))) && j.members[5].1 == JString(b.mode)
    ensures b.AnalysisBody? ==>
      && j.members[0].1 == AnalysisJson(b.result.visualAnalysis)
      && j.members[1].1 == TextJson(b.result.trendSummary)
      && j.members[2].1 == TextJson(b.result.finalReport)
      && j.members[3].1 == NullableJson(b.result.generatedImageUrl)
      && j.members[6].1 == PromptJson(b.result.generationPrompt)
      && j.members[7].1 == NullableJson(b.result.imageGenerationError)
  {
    match b
    case ErrorBody(e) => JObject([("error", JString(e))])
    case ServerErrorBody(d) => JObject([("error", JString(ServerError)), ("details", JString(d))])
    case AnalysisBody(r, mode) =>
      JObject([
        ("visual_analysis", AnalysisJson(r.visualAnalysis)),
        ("trend_summary", TextJson(r.trendSummary)),
        ("final_report", TextJson(r.finalReport)),
        ("generated_image_url", NullableJson(r.generatedImageUrl)),
        ("agent_logs", JArray(LogsJson(Logs(r)))),
        ("analysis_mode", JString(mode)),
        ("generation_prompt", PromptJson(r.generationPrompt)),
        ("image_generation_error", NullableJson(r.imageGenerationError))])
  }

  /** The request served by the supervisor's graph. */
  function Serve(req: Request, cache: Config.LmCache, extOrder: seq<string>, o: Supervisor.Oracles, clock: Clock): Handled
    requires ListsAllowedExtensions(extOrder)
  {
    HandleRequest(req, cache, extOrder, (s: State) => Supervisor.Invoke(s, o, clock))
  }

  /** A request that passes the checks is answered 200 whatever the external calls do:
      the run keeps the request's query (the default only when the field is absent) and
      mode, its agent_logs list holds exactly the eight stage entries in graph order,
      and exactly one of the image URL and the image error is set. */
  lemma ServedAnalysis(req: Request, cache: Config.LmCache, extOrder: seq<string>, o: Supervisor.Oracles, clock: Clock)
    requires ListsAllowedExtensions(extOrder)
    requires ValidateRequest(req, extOrder).Success?
    requires req.image.value.content.Ok? && |req.image.value.content.payload| <= MaxFileSize
    ensures var h := Serve(req, cache, extOrder, o, clock);
      && h.response.status == 200
      && var r := h.response.body.result;
      && r.userQuery == Some(req.query.GetOr(DefaultQuery))
      && r.analysisMode == Some(RequestMode(req.mode)) && h.cache.currentMode == r.analysisMode
      && |Logs(r)| == 8
      && (forall k :: 0 <= k < 4 ==> Logs(r)[2 * k].agent == Supervisor.StageAgents[k] && Logs(r)[2 * k + 1].agent == Supervisor.StageAgents[k])
      && r.generatedImageUrl.Some? && r.imageGenerationError.Some?
      && (r.generatedImageUrl.value.None? <==> r.imageGenerationError.value.Some?)
  {
    var mode := RequestMode(req.mode);
    var s := InitialState(req.image.value.content.payload, req.query.GetOr(DefaultQuery), mode);
    Supervisor.InvokeSummary(s, o, clock);
  }

  /** The JSON of a successful body whose log holds the eight stage entries: an array
      of eight entry objects, each naming its stage's agent first. */
  lemma AnalysisBodyJson(r: State, mode: string)
    requires |Logs(r)| == 8
    requires forall k :: 0 <= k < 4 ==> Logs(r)[2 * k].agent == Supervisor.StageAgents[k] && Logs(r)[2 * k + 1].agent == Supervisor.StageAgents[k]
    ensures var j := BodyJson(AnalysisBody(r, mode));
      && j.members[4].1.JArray? && |j.members[4].1.items| == 8
      && forall k :: 0 <= k < 8 ==> j.members[4].1.items[k].JObject? && j.members[4].1.items[k].members[0] == ("agent", JString(Supervisor.StageAgents[k / 2]))
  {
    forall k | 0 <= k < 8 ensures Logs(r)[k].agent == Supervisor.StageAgents[k / 2] {
      assert k == 2 * (k / 2) || k == 2 * (k / 2) + 1;
    }
  }

  /** The served JSON of a valid request: the eight response keys, an agent_logs array
      of eight entry objects whose agents follow the graph, and the request's mode. */
  lemma ServedJson(req: Request, cache: Config.LmCache, extOrder: seq<string>, o: Supervisor.Oracles, clock: Clock)
    requires ListsAllowedExtensions(extOrder)
    requires ValidateRequest(req, extOrder).Success?
    requires req.image.value.content.Ok? && |req.image.value.content.payload| <= MaxFileSize
    ensures var j := BodyJson(Serve(req, cache, extOrder, o, clock).response.body);
      && KeysOf(j.members) == ResponseKeys
      && j.members[4].1.JArray? && |j.members[4].1.items| == 8
      && (forall k :: 0 <= k < 8 ==> j.members[4].1.items[k].JObject? && j.members[4].1.items[k].members[0] == ("agent", JString(Supervisor.StageAgents[k / 2])))
      && j.members[5].1 == JString(RequestMode(req.mode))
      && (j.members[3].1.JNull? <==> !j.members[7].1.JNull?)
  {
    ServedAnalysis(req, cache, extOrder, o, clock);
    var body := Serve(req, cache, extOrder, o, clock).response.body;
    AnalysisBodyJson(body.result, body.mode);
  }
}

=== FILE: base64.dfy ===
/** Base64 encoding of section 4 of RFC 4648 (standard alphabet, '=' padding),
    as used by base64.b64encode when the generated image is turned into a data URL,
    with a strict decoder as its inverse. */
module Base64 {
  import opened Wrappers
  import opened Text

  /** The character for a 6-bit value: A-Z, a-z, 0-9, '+', '/'. */
  function Digit(i: int): (c: char)
    requires 0 <= i < 64
  {
    if i < 26 then ('A' as int + i) as char
    else if i < 52 then ('a' as int + i - 26) as char
    else if i < 62 then ('0' as int + i - 52) as char
    else if i == 62 then '+'
    else '/'
  }

  /** The 6-bit value of an alphabet character; None for every other character. */
  function DigitValue(c: char): (r: Option<int>)
    ensures r.Some? ==> 0 <= r.value < 64
  {
    if 'A' <= c <= 'Z' then Some(c as int - 'A' as int)
    else if 'a' <= c <= 'z' then Some(c as int - 'a' as int + 26)
    else if '0' <= c <= '9' then Some(c as int - '0' as int + 52)
    else if c == '+' then Some(62)
    else if c == '/' then Some(63)
    else None
  }

  lemma DigitRoundTrip(i: int)
    requires 0 <= i < 64
    ensures DigitValue(Digit(i)) == Some(i)
    ensures Digit(i) != '='
  {
  }

  predicate IsDigit(c: char) {
    DigitValue(c).Some?
  }

  /** A group of four output characters. */
  predicate IsGroup(q: string) {
    |q| == 4 && forall i :: 0 <= i < 4 ==> IsDigit(q[i]) || q[i] == '='
  }

  /** Three bytes as four characters. */
  function Quad(b0: Byte, b1: Byte, b2: Byte): (q: string)
    ensures IsGroup(q) && q[3] != '='
  {
    DigitRoundTrip(b0 / 4);
    DigitRoundTrip((b0 % 4) * 16 + b1 / 16);
    DigitRoundTrip((b1 % 16) * 4 + b2 / 64);
    DigitRoundTrip(b2 % 64);
    [Digit(b0 / 4), Digit((b0 % 4) * 16 + b1 / 16), Digit((b1 % 16) * 4 + b2 / 64), Digit(b2 % 64)]
  }

  /** A final single byte: two characters and two '='. */
  function Single(b0: Byte): (q: string)
    ensures IsGroup(q) && q[2] == '=' && q[3] == '='
  {
    DigitRoundTrip(b0 / 4);
    DigitRoundTrip((b0 % 4) * 16);
    [Digit(b0 / 4), Digit((b0 % 4) * 16), '=', '=']
  }

  /** A final pair of bytes: three characters and one '='. */
  function Pair(b0: Byte, b1: Byte): (q: string)
    ensures IsGroup(q) && q[2] != '=' && q[3] == '='
  {
    DigitRoundTrip(b0 / 4);
    DigitRoundTrip((b0 % 4) * 16 + b1 / 16);
    DigitRoundTrip((b1 % 16) * 4);
    [Digit(b0 / 4), Digit((b0 % 4) * 16 + b1 / 16), Digit((b1 % 16) * 4), '=']
  }

  /** Encode the bytes, three at a time; a final group of one or two bytes is padded with '='. */
  function Encode(b: Bytes): (r: string)
    ensures |r| == 4 * ((|b| + 2) / 3)
    ensures forall i :: 0 <= i < |r| ==> IsDigit(r[i]) || r[i] == '='
  {
    if |b| == 0 then ""
    else if |b| == 1 then Single(b[0])
    else if |b| == 2 then Pair(b[0], b[1])
    else
      var q, rest := Quad(b[0], b[1], b[2]), Encode(b[3..]);
      assert forall i :: 4 <= i < |q + rest| ==> (q + rest)[i] == rest[i - 4];
      q + rest
  }

  /** Four alphabet characters as three bytes. */
  function DecodeQuad(q: string): (r: Option<Bytes>)
    requires |q| == 4
    ensures r.Some? ==> |r.value| == 3
  {
    var v0, v1, v2, v3 := DigitValue(q[0]), DigitValue(q[1]), DigitValue(q[2]), DigitValue(q[3]);
    if v0.None? || v1.None? || v2.None? || v3.None? then None
    else Some([v0.value * 4 + v1.value / 16, (v1.value % 16) * 16 + v2.value / 4, (v2.value % 4) * 64 + v3.value])
  }

  /** The last group of four characters, which may end in one or two '='; the bits
      a padded group does not use must be zero. */
  function DecodeLast(q: string): (r: Option<Bytes>)
    requires |q| == 4
    ensures r.Some? ==> 1 <= |r.value| <= 3
  {
    if q[3] != '=' then DecodeQuad(q)
    else
      var v0, v1 := DigitValue(q[0]), DigitValue(q[1]);
      if v0.None? || v1.None? then None
      else if q[2] == '=' then
        if v1.value % 16 == 0 then Some([v0.value * 4 + v1.value / 16]) else None
      else
        var v2 := DigitValue(q[2]);
        if v2.None? || v2.value % 4 != 0 then None
        else Some([v0.value * 4 + v1.value / 16, (v1.value % 16) * 16 + v2.value / 4])
  }

  /** Strict decoding of a canonical base64 text: its length is a multiple of four,
      padding appears only in the last group, and the unused bits of a padded group are zero. */
  function Decode(s: string): (r: Option<Bytes>)
    decreases |s|
  {
    if |s| == 0 then Some([])
    else if |s| < 4 then None
    else if |s| == 4 then DecodeLast(s)
    else
      match DecodeQuad(s[..4])
      case None => None
      case Some(head) =>
        match Decode(s[4..])
        case None => None
        case Some(tail) => Some(head + tail)
  }

  lemma DivMod(x: int, d: int, q: int, r: int)
    requires d == 4 || d == 16 || d == 64
    requires x == q * d + r && 0 <= r < d
    ensures x / d == q && x % d == r
  {
  }

  /** The bit arithmetic of one group: splitting three bytes into four 6-bit values
      and joining them again gives the bytes back. */
  lemma GroupArithmetic(b0: Byte, b1: Byte, b2: Byte)
    ensures var x1, x2 := (b0 % 4) * 16 + b1 / 16, (b1 % 16) * 4 + b2 / 64;
      && 0 <= x1 < 64 && 0 <= x2 < 64
      && (b0 / 4) * 4 + x1 / 16 == b0
      && (x1 % 16) * 16 + x2 / 4 == b1
      && (x2 % 4) * 64 + b2 % 64 == b2
  {
    var x1, x2 := (b0 % 4) * 16 + b1 / 16, (b1 % 16) * 4 + b2 / 64;
    DivMod(x1, 16, b0 % 4, b1 / 16);
    DivMod(x2, 4, b1 % 16, b2 / 64);
  }

  lemma QuadRoundTrip(b0: Byte, b1: Byte, b2: Byte)
    ensures DecodeQuad(Quad(b0, b1, b2)) == Some([b0, b1, b2])
    ensures DecodeLast(Quad(b0, b1, b2)) == Some([b0, b1, b2])
  {
    var x1, x2 := (b0 % 4) * 16 + b1 / 16, (b1 % 16) * 4 + b2 / 64;
    GroupArithmetic(b0, b1, b2);
    DigitRoundTrip(b0 / 4);
    DigitRoundTrip(x1);
    DigitRoundTrip(x2);
    DigitRoundTrip(b2 % 64);
  }

  lemma SingleRoundTrip(b0: Byte)
    ensures DecodeLast(Single(b0)) == Some([b0])
  {
    var x1 := (b0 % 4) * 16;
    DivMod(x1, 16, b0 % 4, 0);
    DigitRoundTrip(b0 / 4);
    DigitRoundTrip(x1);
  }

  lemma PairRoundTrip(b0: Byte, b1: Byte)
    ensures DecodeLast(Pair(b0, b1)) == Some([b0, b1])
  {
    var x1, x2 := (b0 % 4) * 16 + b1 / 16, (b1 % 16) * 4;
    DivMod(x1, 16, b0 % 4, b1 / 16);
    DivMod(x2, 4, b1 % 16, 0);
    DigitRoundTrip(b0 / 4);
    DigitRoundTrip(x1);
    DigitRoundTrip(x2);
  }

  /** A text of one group decodes as the last group. */
  lemma DecodeOneGroup(q: string)
    requires |q| == 4
    ensures Decode(q) == DecodeLast(q)
  {
  }

  /** Decoding a text longer than one group decodes its first group and then the rest. */
  lemma DecodeFirstGroup(q: string, rest: string)
    requires |q| == 4 && |rest| > 0
    ensures Decode(q + rest) ==
      match DecodeQuad(q)
      case None => None
      case Some(head) =>
        match Decode(rest)
        case None => None
        case Some(tail) => Some(head + tail)
  {
    var s := q + rest;
    assert s[..4] == q && s[4..] == rest;
  }

  /** One, two or three bytes make one group, which decodes back to them. */
  lemma ShortRoundTrip(b: Bytes)
    requires 1 <= |b| <= 3
    ensures Decode(Encode(b)) == Some(b)
  {
    if |b| == 1 {
      SingleRoundTrip(b[0]);
      DecodeOneGroup(Single(b[0]));
      assert b == [b[0]];
    } else if |b| == 2 {
      PairRoundTrip(b[0], b[1]);
      DecodeOneGroup(Pair(b[0], b[1]));
      assert b == [b[0], b[1]];
    } else {
      TripleRoundTrip(b);
    }
  }

  lemma TripleRoundTrip(b: Bytes)
    requires |b| == 3
    ensures Decode(Encode(b)) == Some(b)
  {
    var q := Quad(b[0], b[1], b[2]);
    assert Encode(b) == q + Encode(b[3..]);
    assert Encode(b) == q;
    QuadRoundTrip(b[0], b[1], b[2]);
    DecodeOneGroup(q);
    assert b == [b[0], b[1], b[2]];
  }

  /** Decoding an encoding gives back the bytes. */
  lemma {:induction false} DecodeEncode(b: Bytes)
    ensures Decode(Encode(b)) == Some(b)
    decreases |b|
  {
    if |b| == 0 {
    } else if |b| <= 3 {
      ShortRoundTrip(b);
    } else {
      var q, rest := Quad(b[0], b[1], b[2]), Encode(b[3..]);
      assert Encode(b) == q + rest;
      QuadRoundTrip(b[0], b[1], b[2]);
      DecodeEncode(b[3..]);
      DecodeFirstGroup(q, rest);
      assert [b[0], b[1], b[2]] + b[3..] == b;
    }
  }

  /** Encoding is injective: different byte strings never share an encoding. */
  lemma EncodeInjective(a: Bytes, b: Bytes)
    requires Encode(a) == Encode(b)
    ensures a == b
  {
    DecodeEncode(a);
    DecodeEncode(b);
  }
}

=== FILE: config.dfy ===
/** configure_lm: the per-process cache that installs the DSPy language model for
    an analysis mode, and reinstalls only when the normalised mode changes. The
    installed models are recorded in order, standing for the dspy.configure calls. */
module Config {
  import opened Wrappers
  import opened Text

  const QuickLm := "gemini/gemini-2.5-flash"
  const DeepLm := "gemini/gemini-2.5-pro"

  /** LM_MAP: language model per analysis mode. */
  const LmMap: map<string, string> := map["quick" := QuickLm, "deep" := DeepLm]

  /** The argument of configure_lm, which may be any Python value. */
  datatype ModeArg = ModeText(text: string) | NotText

  /** A string is lower-cased, anything else becomes "deep"; a result outside LM_MAP becomes "deep". */
  function NormalizeMode(mode: ModeArg): (r: string)
    ensures r in LmMap
    ensures r == "quick" <==> mode.ModeText? && Lower(mode.text) == "quick"
    ensures mode.NotText? ==> r == "deep"
  {
    var lowered := if mode.ModeText? then Lower(mode.text) else "deep";
    if lowered in LmMap then lowered else "deep"
  }

  /** _current_mode together with the history of installed models. */
  datatype LmCache = LmCache(currentMode: Option<string>, installed: seq<string>)

  /** The process state at import time: no mode configured, nothing installed. */
  const Unconfigured := LmCache(None, [])

  /** The cache agrees with the installed model: when a mode is cached, the last
      model installed is the one LM_MAP gives for it. */
  predicate Consistent(c: LmCache) {
    c.currentMode.Some? ==> c.currentMode.value in LmMap && |c.installed| > 0 && c.installed[|c.installed| - 1] == LmMap[c.currentMode.value]
  }

  datatype Configured = Configured(model: string, cache: LmCache)

  function ConfigureLm(cache: LmCache, mode: ModeArg): (r: Configured)
    ensures r.model == LmMap[NormalizeMode(mode)]
    ensures r.model == QuickLm || r.model == DeepLm
    ensures r.cache.currentMode == Some(NormalizeMode(mode))
    ensures cache.currentMode == Some(NormalizeMode(mode)) ==> r.cache == cache
    ensures cache.currentMode != Some(NormalizeMode(mode)) ==> r.cache.installed == cache.installed + [r.model]
  {
    var normalized := NormalizeMode(mode);
    if cache.currentMode == Some(normalized) then Configured(LmMap[normalized], cache)
    else Configured(LmMap[normalized], LmCache(Some(normalized), cache.installed + [LmMap[normalized]]))
  }

  lemma ConfigurePreservesConsistency(cache: LmCache, mode: ModeArg)
    requires Consistent(cache)
    ensures Consistent(ConfigureLm(cache, mode).cache)
    ensures var c := ConfigureLm(cache, mode).cache; c.installed[|c.installed| - 1] == ConfigureLm(cache, mode).model
  {
  }

  /** A fresh process is consistent and has no mode cached, so its first configure_lm
      call installs a model whatever the mode. */
  lemma FirstCallInstalls(mode: ModeArg)
    ensures Consistent(Unconfigured) && Unconfigured.currentMode.None?
    ensures ConfigureLm(Unconfigured, mode).cache.installed == [ConfigureLm(Unconfigured, mode).model]
  {
  }

  /** A sequence of configure_lm calls, in order. */
  function ConfigureAll(cache: LmCache, modes: seq<ModeArg>): LmCache
    decreases |modes|
  {
    if |modes| == 0 then cache else ConfigureAll(ConfigureLm(cache, modes[0]).cache, modes[1..])
  }

  /** Calls whose modes all normalise alike install the model at most once: once
      the first call has cached the mode, every later call is a cache hit. */
  lemma {:induction false} RepeatedModeInstallsAtMostOnce(cache: LmCache, modes: seq<ModeArg>, normalized: string)
    requires forall i :: 0 <= i < |modes| ==> NormalizeMode(modes[i]) == normalized
    ensures var c := ConfigureAll(cache, modes);
      c.installed == cache.installed + (if |modes| == 0 || cache.currentMode == Some(normalized) then [] else [LmMap[normalized]])
    ensures |modes| > 0 ==> ConfigureAll(cache, modes).currentMode == Some(normalized)
    decreases |modes|
  {
    if |modes| > 0 {
      var next := ConfigureLm(cache, modes[0]).cache;
      assert next.currentMode == Some(normalized);
      RepeatedModeInstallsAtMostOnce(next, modes[1..], normalized);
      if |modes| > 1 {
        assert ConfigureAll(next, modes[1..]).installed == next.installed;
      }
    }
  }
}

=== FILE: json.dfy ===
/** The Python values that reach JSON in this system (log details, response bodies),
    and json.dumps with its default separators (", " and ": ") and ensure_ascii=True. */
module Json {
  import opened Text

  /** A JSON-serialisable Python value. Objects keep their keys in insertion order,
      as Python dicts do. */
  datatype Json =
    | JNull
    | JBool(b: bool)
    | JString(s: string)
    | JArray(items: seq<Json>)
    | JObject(members: seq<(string, Json)>)

  /** The keys of an object, in insertion order. */
  function KeysOf(members: seq<(string, Json)>): (r: seq<string>)
    ensures |r| == |members|
    ensures forall i :: 0 <= i < |r| ==> r[i] == members[i].0
  {
    seq(|members|, i requires 0 <= i < |members| => members[i].0)
  }

  /** Printable ASCII: the only characters json.dumps emits when ensure_ascii is set. */
  predicate Printable(s: string) {
    forall i :: 0 <= i < |s| ==> ' ' <= s[i] <= '~'
  }

  lemma PrintableConcat(a: string, b: string)
    requires Printable(a) && Printable(b)
    ensures Printable(a + b)
  {
    assert forall i :: 0 <= i < |a + b| ==> (a + b)[i] == if i < |a| then a[i] else b[i - |a|];
  }

  lemma {:induction false} PrintableJoin(parts: seq<string>, sep: string)
    requires forall i :: 0 <= i < |parts| ==> Printable(parts[i])
    requires Printable(sep)
    ensures Printable(Join(parts, sep))
  {
    if |parts| > 1 {
      PrintableJoin(parts[1..], sep);
      PrintableConcat(parts[0], sep);
      PrintableConcat(parts[0] + sep, Join(parts[1..], sep));
    }
  }

  function HexDigit(d: int): (c: char)
    requires 0 <= d < 16
    ensures ' ' <= c <= '~'
  {
    if d < 10 then ('0' as int + d) as char else ('a' as int + d - 10) as char
  }

  /** "\\u" followed by four lower-case hex digits. */
  function UnicodeEscape(n: int): (r: string)
    requires 0 <= n < 0x1_0000
    ensures |r| == 6 && Printable(r)
  {
    ['\\', 'u', HexDigit(n / 0x1000), HexDigit(n / 0x100 % 16), HexDigit(n / 0x10 % 16), HexDigit(n % 16)]
  }

  /** How one character of a string is written under ensure_ascii: the two-character
      escapes for '"', '\\', backspace, form feed, newline, carriage return and tab;
      printable ASCII as itself; anything else as a \\u escape, characters beyond the
      Basic Multilingual Plane as a UTF-16 surrogate pair. */
  function EscapeChar(c: char): (r: string)
    ensures Printable(r) && |r| > 0
    ensures ' ' <= c <= '~' && c != '"' && c != '\\' ==> r == [c]
  {
    var n := c as int;
    if c == '"' then "\\\""
    else if c == '\\' then "\\\\"
    else if n == 8 then "\\b"
    else if n == 12 then "\\f"
    else if c == '\n' then "\\n"
    else if c == '\r' then "\\r"
    else if c == '\t' then "\\t"
    else if ' ' <= c <= '~' then [c]
    else if n < 0x1_0000 then UnicodeEscape(n)
    else
      var v := n - 0x1_0000;
      UnicodeEscape(0xD800 + v / 0x400) + UnicodeEscape(0xDC00 + v % 0x400)
  }

  function EscapeString(s: string): (r: string)
    ensures Printable(r)
    ensures |r| >= |s|
  {
    if |s| == 0 then ""
    else
      PrintableConcat(EscapeChar(s[0]), EscapeString(s[1..]));
      EscapeChar(s[0]) + EscapeString(s[1..])
  }

  /** A string literal: the escaped text between double quotes. */
  function Quote(s: string): (r: string)
    ensures Printable(r) && |r| >= 2 && r[0] == '"' && r[|r| - 1] == '"'
  {
    PrintableConcat("\"", EscapeString(s));
    PrintableConcat("\"" + EscapeString(s), "\"");
    "\"" + EscapeString(s) + "\""
  }

  /** json.dumps(v, ensure_ascii=True). The text is always non-empty printable ASCII. */
  function Dumps(v: Json): (r: string)
    ensures Printable(r) && |r| > 0
    decreases v
  {
    match v
    case JNull => "null"
    case JBool(b) => if b then "true" else "false"
    case JString(s) => Quote(s)
    case JArray(items) =>
      var parts := seq(|items|, i requires 0 <= i < |items| => Dumps(items[i]));
      PrintableJoin(parts, ", ");
      Bracket('[', Join(parts, ", "), ']')
    case JObject(members) =>
      var parts := seq(|members|, i requires 0 <= i < |members| => Member(members[i].0, Dumps(members[i].1)));
      PrintableJoin(parts, ", ");
      Bracket('{', Join(parts, ", "), '}')
  }

  /** One "key": value pair of an object, given the value's text. */
  function Member(key: string, value: string): (r: string)
    requires Printable(value)
    ensures Printable(r)
  {
    PrintableConcat(Quote(key), ": ");
    PrintableConcat(Quote(key) + ": ", value);
    Quote(key) + ": " + value
  }

  function Bracket(open: char, body: string, close: char): (r: string)
    requires ' ' <= open <= '~' && ' ' <= close <= '~' && Printable(body)
    ensures Printable(r) && |r| >= 2
  {
    PrintableConcat([open], body);
    PrintableConcat([open] + body, [close]);
    [open] + body + [close]
  }
}

=== FILE: logs.dfy ===
/** append_agent_log: the single writer of the agent_logs list in the shared state. */
module AgentLogs {
  import opened Wrappers
  import opened Text
  import opened Json
  import opened AgentState

  /** The level a caller gets when it gives none. */
  const DefaultLevel := "info"

  /** Longest stored serialisation of a dict or list payload. */
  const DetailsLimit := 800

  /** The text stored under an entry's details key, or None when the key is left out:
      a dict or list is stored as its JSON text cut to 800 characters, a string as it is. */
  function RenderDetails(d: Details): (r: Option<string>)
    ensures r.None? <==> d.NoDetails?
    ensures d.DictDetails? ==> var full := Dumps(JObject(d.members));
      |r.value| <= DetailsLimit && IsPrefix(r.value, full) && (|full| <= DetailsLimit ==> r.value == full)
    ensures d.ListDetails? ==> var full := Dumps(JArray(d.items));
      |r.value| <= DetailsLimit && IsPrefix(r.value, full) && (|full| <= DetailsLimit ==> r.value == full)
    ensures d.TextDetails? ==> r == Some(d.text)
  {
    match d
    case NoDetails => None
    case DictDetails(members) => Some(Take(Dumps(JObject(members)), DetailsLimit))
    case ListDetails(items) => Some(Take(Dumps(JArray(items)), DetailsLimit))
    case TextDetails(text) => Some(text)
  }

  /** The text an entry holds under its details key; None when the key is absent. */
  function StoredDetails(e: LogEntry): Option<string> {
    RenderDetails(e.details)
  }

  /** Append one entry to agent_logs, creating the list when the key is absent. The
      entry's timestamp is the clock reading for its position in the list. */
  function AppendAgentLog(s: State, agent: string, message: string, level: string, details: Details, clock: Clock): (r: State)
    ensures r.agentLogs.Some?
    ensures |Logs(r)| == |Logs(s)| + 1
    ensures Logs(r)[..|Logs(s)|] == Logs(s)
    ensures var e := Logs(r)[|Logs(s)|];
      && e.agent == agent && e.message == message && e.level == level
      && e.timestamp == clock(|Logs(s)|)
      && e.details == details
    ensures r.(agentLogs := s.agentLogs) == s
    ensures forall k :: Has(r, k) <==> Has(s, k) || k == AgentLogsKey
  {
    var logs := Logs(s);
    HasWithLogs(s, logs + [LogEntry(agent, message, level, clock(|logs|), details)]);
    s.(agentLogs := Some(logs + [LogEntry(agent, message, level, clock(|logs|), details)]))
  }

  /** after is before with two more entries written by the same agent: the first
      at level firstLevel, the second at level secondLevel. */
  predicate AppendsPair(before: seq<LogEntry>, after: seq<LogEntry>, agent: string, firstLevel: string, secondLevel: string) {
    && |after| == |before| + 2
    && after[..|before|] == before
    && after[|before|].agent == agent && after[|before|].level == firstLevel
    && after[|before| + 1].agent == agent && after[|before| + 1].level == secondLevel
  }
}

=== FILE: multi_model.dfy ===
/** The two Gemini stages: analyze_image (vision) and generate_outfit (image
    generation), with the message list, the response-part scan and the data URL
    of the generation call. Every Gemini or DSPy call is an oracle. */
module MultiModel {
  import opened Wrappers
  import opened Text
  import opened Json
  import opened AgentState
  import opened AgentLogs
  import Base64

  // ---------------------------------------------------------------- vision

  /** VISION_MODELS: vision model per analysis mode. */
  const VisionModels: map<string, string> := map["quick" := "gemini-2.5-flash", "deep" := "gemini-2.5-pro"]

  /** The model for a mode; a mode that is not a key gets the deep model. The lookup
      is case-sensitive. */
  function VisionModel(mode: string): (r: string)
    ensures r == (if mode == "quick" then "gemini-2.5-flash" else "gemini-2.5-pro")
    ensures r in VisionModels.Values
  {
    if mode in VisionModels then VisionModels[mode] else VisionModels["deep"]
  }

  /** The structured analysis the vision pipeline delivers. */
  datatype Features = Features(genderStyle: string, cut: string, color: string, fabric: string, occasion: string)

  const FeatureKeys := ["gender_style", "cut", "color", "fabric", "occasion"]

  /** The vision call (image load, description, structuring), given the model name,
      the image bytes and the user query. */
  type VisionCall = (string, Bytes, string) -> Outcome<Features>

  /** What the vision call delivers for a state. A state without original_image fails
      with the KeyError's text before the oracle is consulted. */
  function VisionOutcome(s: State, call: VisionCall): (r: Outcome<Features>)
    ensures s.originalImage.None? ==> r == Fail("'original_image'")
    ensures s.originalImage.Some? ==> r == call(VisionModel(ModeOf(s)), s.originalImage.value, s.userQuery.GetOr(""))
  {
    match s.originalImage
    case None => Fail("'original_image'")
    case Some(image) => call(VisionModel(ModeOf(s)), image, s.userQuery.GetOr(""))
  }

  /** The five (key, field) pairs, in the order the source writes them. */
  function FeaturePairs(f: Features): Dict {
    [("gender_style", f.genderStyle), ("cut", f.cut), ("color", f.color), ("fabric", f.fabric), ("occasion", f.occasion)]
  }

  /** Reading a feature key from the pairs gives its field, whatever the default. */
  lemma FeaturePairsLookup(f: Features, default: string)
    ensures var d := FeaturePairs(f);
      && Lookup(d, "gender_style", default) == f.genderStyle
      && Lookup(d, "cut", default) == f.cut
      && Lookup(d, "color", default) == f.color
      && Lookup(d, "fabric", default) == f.fabric
      && Lookup(d, "occasion", default) == f.occasion
  {
    var d := FeaturePairs(f);
    assert |"gender_style"| == 12 && |"cut"| == 3 && |"color"| == 5 && |"fabric"| == 6 && |"occasion"| == 8;
    LookupAt(d, 1, "cut", default);
    LookupAt(d, 2, "color", default);
    LookupAt(d, 3, "fabric", default);
    LookupAt(d, 4, "occasion", default);
  }

  /** The analysis dict of a successful call: each feature key holds the matching field. */
  function FeatureDict(f: Features): (d: Dict)
    ensures DictKeys(d) == FeatureKeys
    ensures forall default ::
      && Lookup(d, "gender_style", default) == f.genderStyle
      && Lookup(d, "cut", default) == f.cut
      && Lookup(d, "color", default) == f.color
      && Lookup(d, "fabric", default) == f.fabric
      && Lookup(d, "occasion", default) == f.occasion
  {
    var d := FeaturePairs(f);
    assert forall default ::
      && Lookup(d, "gender_style", default) == f.genderStyle
      && Lookup(d, "cut", default) == f.cut
      && Lookup(d, "color", default) == f.color
      && Lookup(d, "fabric", default) == f.fabric
      && Lookup(d, "occasion", default) == f.occasion
    by {
      forall default: string
        ensures && Lookup(d, "gender_style", default) == f.genderStyle
          && Lookup(d, "cut", default) == f.cut
          && Lookup(d, "color", default) == f.color
          && Lookup(d, "fabric", default) == f.fabric
          && Lookup(d, "occasion", default) == f.occasion
      {
        FeaturePairsLookup(f, default);
      }
    }
    d
  }

  /** The analysis recorded on failure: every feature "unknown", plus the error. */
  function UnknownDict(msg: string): (d: Dict)
    ensures DictKeys(d) == FeatureKeys + ["error"]
    ensures forall i :: 0 <= i < 5 ==> d[i].1 == "unknown"
    ensures d[5].1 == msg
  {
    FeatureDict(Features("unknown", "unknown", "unknown", "unknown", "unknown")) + [("error", msg)]
  }

  /** Every feature read from the failure analysis is "unknown", whatever default the
      reader supplies. */
  lemma UnknownLookup(msg: string, key: string, default: string)
    requires key in FeatureKeys
    ensures Lookup(UnknownDict(msg), key, default) == "unknown"
  {
    var d := UnknownDict(msg);
    var j :| 0 <= j < 5 && FeatureKeys[j] == key;
    assert DictKeys(d)[j] == key;
    var r := Lookup(d, key, default);
    var i :| 0 <= i < |d| && d[i] == (key, r);
    assert DictKeys(d)[i] == key;
  }

  function StringMembers(d: Dict): seq<(string, Json)> {
    seq(|d|, i requires 0 <= i < |d| => (d[i].0, JString(d[i].1)))
  }

  function AnalyzeImage(s: State, call: VisionCall, clock: Clock): (u: State)
    ensures u == NoKeys.(visualAnalysis := u.visualAnalysis, agentLogs := u.agentLogs)
    ensures u.visualAnalysis.Some? && u.agentLogs.Some?
    ensures match VisionOutcome(s, call)
      case Ok(f) =>
        && u.visualAnalysis == Some(FeatureDict(f))
        && AppendsPair(Logs(s), Logs(u), "vision", "info", "info")
      case Fail(msg) =>
        && u.visualAnalysis == Some(UnknownDict(msg))
        && (forall i :: 0 <= i < 5 ==> u.visualAnalysis.value[i].1 == "unknown")
        && Lookup(u.visualAnalysis.value, "error", "") == msg
        && AppendsPair(Logs(s), Logs(u), "vision", "info", "error")
        && Logs(u)[|Logs(s)| + 1].details == TextDetails(msg)
    ensures Logs(u)[|Logs(s)|].details == DictDetails([("mode", JString(ModeOf(s))), ("model", JString(VisionModel(ModeOf(s))))])
  {
    var mode := ModeOf(s);
    var s1 := AppendAgentLog(s, "vision", "Starting image analysis", DefaultLevel,
      DictDetails([("mode", JString(mode)), ("model", JString(VisionModel(mode)))]), clock);
    var (analysis, s2) :=
      match VisionOutcome(s, call)
      case Ok(f) =>
        (FeatureDict(f), AppendAgentLog(s1, "vision", "Completed image analysis", DefaultLevel, DictDetails(StringMembers(FeatureDict(f))), clock))
      case Fail(msg) =>
        (UnknownDict(msg), AppendAgentLog(s1, "vision", "Failed to analyze image", "error", TextDetails(msg), clock));
    NoKeys.(visualAnalysis := Some(analysis), agentLogs := s2.agentLogs)
  }


  // ------------------------------------------------------ generation request

  /** IMAGE_MODEL: the model every generation request goes to. */
  const ImageModel := "gemini-2.5-flash-image"

  /** One element of the message list sent to the image model: the fixed instruction,
      the styling guidance, the generation prompt, or the reference image. */
  datatype Message = InstructionMessage | GuidanceMessage(advice: string) | PromptMessage(prompt: Prompt) | ImageMessage(image: Bytes)

  const Instruction := "Generate a new image that keeps the exact same person, face, facial expression, pose, body type, and background from the reference image. Only change the clothing and outfit to match the professional styling guidance provided. Do not alter the person's appearance, hair, or any other physical features."

  const GuidanceHeader := "Styling guidance to apply:\n"

  /** The text a message sends; the image sends none. */
  function MessageText(m: Message): Option<string> {
    match m
    case InstructionMessage => Some(Instruction)
    case GuidanceMessage(advice) => Some(GuidanceHeader + advice)
    case PromptMessage(p) => Some(RenderPrompt(p))
    case ImageMessage(_) => None
  }

  /** The messages in the order they are sent: the fixed instruction; the advice, only
      when it is non-empty; the prompt; the reference image, only when it is non-empty
      and loads as an image. */
  function ImageMessages(prompt: Prompt, baseImage: Option<Bytes>, advice: string, loads: Bytes -> bool): (r: seq<Message>)
    ensures var withImage := baseImage.Some? && |baseImage.value| > 0 && loads(baseImage.value);
      && |r| == 2 + (if advice != "" then 1 else 0) + (if withImage then 1 else 0)
      && (withImage <==> r[|r| - 1].ImageMessage?)
      && (withImage ==> r[|r| - 1] == ImageMessage(baseImage.value))
    ensures r[0] == InstructionMessage
    ensures advice != "" ==> r[1] == GuidanceMessage(advice) && r[2] == PromptMessage(prompt)
    ensures advice == "" ==> r[1] == PromptMessage(prompt)
  {
    [InstructionMessage]
    + (if advice != "" then [GuidanceMessage(advice)] else [])
    + [PromptMessage(prompt)]
    + (if baseImage.Some? && |baseImage.value| > 0 && loads(baseImage.value) then [ImageMessage(baseImage.value)] else [])
  }

  /** What the message list sends as text: the fixed instruction first, the advice
      under its heading when there is advice, the rendered prompt, and no text for the
      reference image, which is the only message without text. */
  lemma SentTexts(prompt: Prompt, baseImage: Option<Bytes>, advice: string, loads: Bytes -> bool)
    ensures var r := ImageMessages(prompt, baseImage, advice, loads);
      && MessageText(r[0]) == Some(Instruction)
      && (advice != "" ==> MessageText(r[1]) == Some(GuidanceHeader + advice) && IsSuffix(advice, MessageText(r[1]).value))
      && MessageText(r[if advice != "" then 2 else 1]) == Some(RenderPrompt(prompt))
      && forall i :: 0 <= i < |r| ==> (MessageText(r[i]).None? <==> r[i].ImageMessage?)
  {
    Framed(GuidanceHeader, "", advice);
    assert "" + advice == advice;
  }

  // -------------------------------------------------------- response scan

  /** inline_data.data: bytes, or a base64 text. */
  datatype PartData = RawBytes(bytes: Bytes) | Base64Text(text: string)
  datatype InlineData = InlineData(data: PartData, mimeType: Option<string>)
  datatype FileData = FileData(fileUri: string, mimeType: Option<string>)

  /** A response part; None stands for an attribute that is missing or None. */
  datatype Part = Part(inlineData: Option<InlineData>, fileData: Option<FileData>)

  /** A candidate contributes its content's parts, or nothing when its content is
      missing, falsy or has no parts attribute (parts set to None reads as []). */
  datatype Candidate = Candidate(parts: Option<seq<Part>>)

  /** A generate_content response: a falsy one, or candidates and top-level parts
      (a missing or None attribute reads as []). */
  datatype GenResponse = FalsyResponse | GenResponse(candidates: seq<Candidate>, parts: seq<Part>)

  /** The external pieces of image generation: whether PIL loads the reference image,
      the generate_content call (given the model name and the messages), base64.b64decode (None when it raises) and the file
      download (empty when it gives nothing). */
  datatype ImageBackend = ImageBackend(
    loads: Bytes -> bool,
    generate: (string, seq<Message>) -> Outcome<GenResponse>,
    b64decode: string -> Option<Bytes>,
    download: string -> Bytes)

  /** Image bytes with their declared mime type. */
  type Found = (Bytes, Option<string>)

  /** The part's inline data qualifies: non-empty bytes, or a non-empty text that
      decodes (to any bytes, even none). */
  predicate InlineUsable(p: Part, decode: string -> Option<Bytes>) {
    p.inlineData.Some? &&
    match p.inlineData.value.data
    case RawBytes(b) => |b| > 0
    case Base64Text(t) => |t| > 0 && decode(t).Some?
  }

  /** The part's file data qualifies: a non-empty URI whose download gives bytes. */
  predicate FileUsable(p: Part, download: string -> Bytes) {
    p.fileData.Some? && |p.fileData.value.fileUri| > 0 && |download(p.fileData.value.fileUri)| > 0
  }

  /** What one part yields: its inline data when that qualifies, with the inline mime
      type; failing that, its file data when that qualifies, with the file's mime
      type; otherwise nothing. */
  function PartYield(p: Part, decode: string -> Option<Bytes>, download: string -> Bytes): (r: Option<Found>)
    ensures r.None? <==> !InlineUsable(p, decode) && !FileUsable(p, download)
    ensures InlineUsable(p, decode) && p.inlineData.value.data.RawBytes? ==>
      r == Some((p.inlineData.value.data.bytes, p.inlineData.value.mimeType))
    ensures InlineUsable(p, decode) && p.inlineData.value.data.Base64Text? ==>
      r == Some((decode(p.inlineData.value.data.text).value, p.inlineData.value.mimeType))
    ensures !InlineUsable(p, decode) && FileUsable(p, download) ==>
      r == Some((download(p.fileData.value.fileUri), p.fileData.value.mimeType))
  {
    var fromInline :=
      match p.inlineData
      case None => None
      case Some(InlineData(RawBytes(b), mime)) => if |b| > 0 then Some((b, mime)) else None
      case Some(InlineData(Base64Text(t), mime)) =>
        if |t| > 0 then (match decode(t) case Some(b) => Some((b, mime)) case None => None) else None;
    if fromInline.Some? then fromInline
    else
      match p.fileData
      case Some(FileData(uri, mime)) =>
        if |uri| > 0 && |download(uri)| > 0 then Some((download(uri), mime)) else None
      case None => None
  }

  /** The first part, in order, that yields something. */
  function FirstYield(parts: seq<Part>, decode: string -> Option<Bytes>, download: string -> Bytes): (r: Option<Found>)
    ensures r.None? <==> forall i :: 0 <= i < |parts| ==> PartYield(parts[i], decode, download).None?
    ensures r.Some? ==>
      exists i :: 0 <= i < |parts| && r == PartYield(parts[i], decode, download) && (forall j :: 0 <= j < i ==> PartYield(parts[j], decode, download).None?)
  {
    if |parts| == 0 then None
    else
      var here := PartYield(parts[0], decode, download);
      if here.Some? then here else FirstYield(parts[1..], decode, download)
  }

  /** Scanning a concatenation scans the first list completely before the second. */
  lemma {:induction false} FirstYieldConcat(a: seq<Part>, b: seq<Part>, decode: string -> Option<Bytes>, download: string -> Bytes)
    ensures FirstYield(a + b, decode, download) ==
      if FirstYield(a, decode, download).Some? then FirstYield(a, decode, download) else FirstYield(b, decode, download)
  {
    if |a| > 0 {
      assert (a + b)[0] == a[0] && (a + b)[1..] == a[1..] + b;
      FirstYieldConcat(a[1..], b, decode, download);
    } else {
      assert a + b == b;
    }
  }

  /** The parts of all candidates, candidate by candidate. */
  function CandidateParts(cs: seq<Candidate>): seq<Part> {
    if |cs| == 0 then [] else cs[0].parts.GetOr([]) + CandidateParts(cs[1..])
  }

  /** _extract_image_bytes: a falsy response yields nothing; otherwise the candidates'
      parts are scanned before the response's own parts and the first part that
      yields wins. */
  function ExtractImageBytes(resp: GenResponse, decode: string -> Option<Bytes>, download: string -> Bytes): (r: Option<Found>)
    ensures resp.FalsyResponse? ==> r.None?
    ensures resp.GenResponse? ==>
      var fromCandidates := FirstYield(CandidateParts(resp.candidates), decode, download);
      r == if fromCandidates.Some? then fromCandidates else FirstYield(resp.parts, decode, download)
  {
    match resp
    case FalsyResponse => None
    case GenResponse(candidates, parts) =>
      FirstYieldConcat(CandidateParts(candidates), parts, decode, download);
      FirstYield(CandidateParts(candidates) + parts, decode, download)
  }

  // --------------------------------------------------------------- data URL

  const DefaultMime := "image/png"

  /** mime_type or "image/png": a missing or empty mime type becomes image/png. */
  function MimeOrDefault(mime: Option<string>): (r: string)
    ensures r != ""
    ensures mime.Some? && mime.value != "" ==> r == mime.value
    ensures !(mime.Some? && mime.value != "") ==> r == DefaultMime
  {
    if mime.Some? && mime.value != "" then mime.value else DefaultMime
  }

  function DataUrlHead(mime: string): string {
    "data:" + mime + ";base64,"
  }

  /** A data URL in the form of section 3 of RFC 2397, whose payload is the base64
      encoding of the bytes and decodes back to them. */
  function DataUrl(mime: string, bytes: Bytes): (r: string)
    ensures IsPrefix(DataUrlHead(mime), r)
    ensures Base64.Decode(r[|DataUrlHead(mime)|..]) == Some(bytes)
  {
    var head := DataUrlHead(mime);
    var r := head + Base64.Encode(bytes);
    PrefixOfConcat(head, Base64.Encode(bytes));
    assert r[|head|..] == Base64.Encode(bytes);
    Base64.DecodeEncode(bytes);
    r
  }

  /** _generate_image_from_gemini: the data URL and mime type of the first image the
      response carries, or nothing when the call fails or no non-empty image is found. */
  function GenerateImage(prompt: Prompt, baseImage: Option<Bytes>, advice: string, backend: ImageBackend): (r: Option<(string, string)>)
    ensures var call := backend.generate(ImageModel, ImageMessages(prompt, baseImage, advice, backend.loads));
      && (r.Some? <==>
        call.Ok? && ExtractImageBytes(call.payload, backend.b64decode, backend.download).Some?
        && |ExtractImageBytes(call.payload, backend.b64decode, backend.download).value.0| > 0)
      && (r.Some? ==>
        var found := ExtractImageBytes(call.payload, backend.b64decode, backend.download).value;
        r.value == (DataUrl(MimeOrDefault(found.1), found.0), MimeOrDefault(found.1)))
  {
    match backend.generate(ImageModel, ImageMessages(prompt, baseImage, advice, backend.loads))
    case Fail(_) => None
    case Ok(response) =>
      match ExtractImageBytes(response, backend.b64decode, backend.download)
      case None => None
      case Some((bytes, mime)) =>
        if |bytes| == 0 then None
        else Some((DataUrl(MimeOrDefault(mime), bytes), MimeOrDefault(mime)))
  }

  // ------------------------------------------------------------ generation

  /** The Outfit line of the prompt: the advice up to its first '.', or
      "Professional outfit" when there is no advice. */
  function OutfitLine(advice: string): (r: string)
    ensures advice == "" ==> r == "Professional outfit"
    ensures advice != "" ==> IsPrefix(r, advice) && '.' !in r && (r == advice || advice[|r|] == '.')
  {
    if advice != "" then BeforeFirst(advice, '.') else "Professional outfit"
  }

  const PromptHead := "Professional fashion editorial photography:\n- Outfit: "

  /** The fixed lines that close the prompt. */
  const PromptTailLines := [
    "- IMPORTANT: Keep the exact same person, face, facial expression, pose, and background from the reference image. Only change the clothing/outfit to match the new style guidance.",
    "- Setting: Same background as reference image, professional lighting",
    "- Shot: Full body, same pose and composition as reference image, high detail, 8K quality",
    "- Mood: Sophisticated, professional, current trends",
    "- Reference: Use the provided outfit photo as base - preserve the person's identity, face, hair, body type, pose, and background completely unchanged. Only modify the wardrobe items."]

  const PromptTail := "\n" + Join(PromptTailLines, "\n")

  const DefaultStyle := "modern tailored fit"
  const DefaultColors := "neutral professional tones"
  const DefaultFabric := "high-quality materials"
  const DefaultOccasion := "professional setting"
  const DefaultRequest := "Tailor to the user's stated preference"

  /** The values the prompt template is filled with: the outfit line, each visual
      field or its default, and the query unless it is empty. */
  function GenerationPrompt(advice: string, visual: Dict, query: string): (p: Prompt)
    ensures p.outfit == OutfitLine(advice)
    ensures GetsOr(visual, "cut", DefaultStyle, p.style)
    ensures GetsOr(visual, "color", DefaultColors, p.colors)
    ensures GetsOr(visual, "fabric", DefaultFabric, p.fabric)
    ensures GetsOr(visual, "occasion", DefaultOccasion, p.occasion)
    ensures p.request == (if query != "" then query else DefaultRequest)
  {
    Prompt(OutfitLine(advice), Lookup(visual, "cut", DefaultStyle), Lookup(visual, "color", DefaultColors),
      Lookup(visual, "fabric", DefaultFabric), Lookup(visual, "occasion", DefaultOccasion),
      if query != "" then query else DefaultRequest)
  }

  /** The prompt's field lines, from the heading through the personal request. */
  function PromptFields(p: Prompt): string {
    PromptHead + p.outfit + "\n- Style: " + p.style + "\n- Colors: " + p.colors
      + "\n- Fabric: " + p.fabric + "\n- Occasion: " + p.occasion + "\n- Personal request: " + p.request
  }

  /** The prompt text: the heading, one line per field in template order, then the
      fixed lines; the template's surrounding blank lines are stripped. */
  function RenderPrompt(p: Prompt): (r: string)
    ensures IsPrefix(PromptFields(p), r) && IsSuffix(PromptTail, r)
    ensures |r| == |PromptFields(p)| + |PromptTail|
  {
    var fields := PromptFields(p);
    Framed(fields, "", PromptTail);
    assert "" + PromptTail == PromptTail;
    fields + PromptTail
  }

  /** The prompt generate_outfit builds from a state: the report gives the outfit line,
      the analysis the visual fields, and the query the personal request; a missing
      report, analysis or query reads as "", {} and "". */
  function PromptOf(s: State): (r: Prompt)
    ensures r.outfit == OutfitLine(s.finalReport.GetOr(""))
    ensures var visual := s.visualAnalysis.GetOr([]);
      && GetsOr(visual, "cut", DefaultStyle, r.style)
      && GetsOr(visual, "color", DefaultColors, r.colors)
      && GetsOr(visual, "fabric", DefaultFabric, r.fabric)
      && GetsOr(visual, "occasion", DefaultOccasion, r.occasion)
    ensures r.request == (if s.userQuery.GetOr("") != "" then s.userQuery.GetOr("") else DefaultRequest)
  {
    GenerationPrompt(s.finalReport.GetOr(""), s.visualAnalysis.GetOr([]), s.userQuery.GetOr(""))
  }

  /** bool(state.get("final_report")): a report is present and non-empty. */
  predicate HasAdvice(s: State) {
    s.finalReport.Some? && s.finalReport.value != ""
  }

  const NoContentError := "Gemini image generation returned no content"

  function GenerateOutfit(s: State, backend: ImageBackend, clock: Clock): (u: State)
    ensures u == NoKeys.(generatedImageUrl := u.generatedImageUrl, generationPrompt := u.generationPrompt,
      imageGenerationError := u.imageGenerationError, agentLogs := u.agentLogs)
    ensures u.generatedImageUrl.Some? && u.generationPrompt.Some? && u.imageGenerationError.Some? && u.agentLogs.Some?
    ensures u.generatedImageUrl.value.None? <==> u.imageGenerationError.value.Some?
    ensures u.generationPrompt == Some(FilledPrompt(PromptOf(s)))
    ensures var image := GenerateImage(PromptOf(s), s.originalImage, s.finalReport.GetOr(""), backend);
      && (image.Some? ==>
        && u.generatedImageUrl == Some(Some(image.value.0))
        && IsPrefix(DataUrlHead(image.value.1), image.value.0)
        && AppendsPair(Logs(s), Logs(u), "generator", "info", "info"))
      && (image.None? ==>
        && u.imageGenerationError == Some(Some(NoContentError))
        && AppendsPair(Logs(s), Logs(u), "generator", "info", "warning")
        && Logs(u)[|Logs(s)| + 1].details == NoDetails)
    ensures Logs(u)[|Logs(s)|].details == DictDetails([("mode", JString(ModeOf(s))), ("has_advice", JBool(HasAdvice(s)))])
  {
    var s0 := s.(imageGenerationError := Some(None));
    var s1 := AppendAgentLog(s0, "generator", "Preparing outfit visualization", DefaultLevel,
      DictDetails([("mode", JString(ModeOf(s))), ("has_advice", JBool(HasAdvice(s)))]), clock);
    var prompt := PromptOf(s);
    var image := GenerateImage(prompt, s.originalImage, s.finalReport.GetOr(""), backend);
    if image.Some? then
      var (url, mime) := image.value;
      var s2 := AppendAgentLog(s1, "generator", "Generated upgraded outfit image", DefaultLevel,
        DictDetails([("mime_type", JString(if mime != "" then mime else "unknown"))]), clock);
      NoKeys.(generatedImageUrl := Some(Some(url)), generationPrompt := Some(FilledPrompt(prompt)), imageGenerationError := Some(None), agentLogs := s2.agentLogs)
    else
      var s2 := AppendAgentLog(s1, "generator", NoContentError, "warning", NoDetails, clock);
      NoKeys.(generatedImageUrl := Some(None), generationPrompt := Some(FilledPrompt(prompt)), imageGenerationError := Some(Some(NoContentError)), agentLogs := s2.agentLogs)
  }

}

=== FILE: state.dfy ===
/** The shared state dictionary threaded through the agent graph (AgentState), as a
    typed record. Every key is an Option: None means the key is absent from the
    dict, so a partial state update returned by a stage is a value of the same type
    whose present keys are the keys the stage writes. */
module AgentState {
  import opened Wrappers
  import opened Text
  import opened Json

  /** A string-valued dict in insertion order (visual_analysis). Keys are unique. */
  type Dict = seq<(string, string)>

  /** dict.get(key, default) on a string-valued dict. */
  function Lookup(d: Dict, key: string, default: string): (r: string)
    ensures (forall i :: 0 <= i < |d| ==> d[i].0 != key) ==> r == default
    ensures (exists i :: 0 <= i < |d| && d[i].0 == key) ==> exists i :: 0 <= i < |d| && d[i] == (key, r)
  {
    if |d| == 0 then default
    else if d[0].0 == key then d[0].1
    else Lookup(d[1..], key, default)
  }

  /** dict.get finds the first occurrence of its key. */
  lemma {:induction false} LookupAt(d: Dict, i: int, key: string, default: string)
    requires 0 <= i < |d| && d[i].0 == key
    requires forall j :: 0 <= j < i ==> d[j].0 != key
    ensures Lookup(d, key, default) == d[i].1
  {
    if i > 0 {
      LookupAt(d[1..], i - 1, key, default);
    }
  }

  function DictKeys(d: Dict): (r: seq<string>)
    ensures |r| == |d|
  {
    seq(|d|, i requires 0 <= i < |d| => d[i].0)
  }

  /** The details argument of append_agent_log: None, a dict, a list, or a string. */
  datatype Details =
    | NoDetails
    | DictDetails(members: seq<(string, Json)>)
    | ListDetails(items: seq<Json>)
    | TextDetails(text: string)

  /** One entry of agent_logs (AgentLogEntry). The entry keeps the details argument it
      was given; the text the entry stores under its details key is a function of it
      (AgentLogs.StoredDetails). */
  datatype LogEntry = LogEntry(agent: string, message: string, level: string, timestamp: string, details: Details)

  /** dict.get(key, default) gave v: v is the key's value when the key is present and
      the default otherwise. */
  predicate GetsOr(d: Dict, key: string, default: string, v: string) {
    if exists i :: 0 <= i < |d| && d[i].0 == key
    then exists i :: 0 <= i < |d| && d[i] == (key, v)
    else v == default
  }

  /** The generation prompt, held as the six values its template fills in; the text
      stored under generation_prompt is MultiModel.RenderPrompt of it. */
  datatype Prompt = Prompt(outfit: string, style: string, colors: string, fabric: string, occasion: string, request: string)

  /** A generation_prompt value: a plain string (the request's initial "") or the
      filled template, held as its fields. */
  datatype PromptValue = PlainPrompt(text: string) | FilledPrompt(fields: Prompt)

  /** A Python value that may be None: generated_image_url and image_generation_error. */
  type Nullable = Option<string>

  datatype State = State(
    originalImage: Option<Bytes>,
    userQuery: Option<string>,
    visualAnalysis: Option<Dict>,
    trendSummary: Option<string>,
    finalReport: Option<string>,
    generatedImageUrl: Option<Nullable>,
    generationPrompt: Option<PromptValue>,
    agentLogs: Option<seq<LogEntry>>,
    analysisMode: Option<string>,
    imageGenerationError: Option<Nullable>)

  /** The empty dict; a stage's update starts from it. */
  const NoKeys := State(None, None, None, None, None, None, None, None, None, None)

  /** The keys of the AgentState schema. */
  datatype Key =
    | OriginalImageKey
    | UserQueryKey
    | VisualAnalysisKey
    | TrendSummaryKey
    | FinalReportKey
    | GeneratedImageUrlKey
    | GenerationPromptKey
    | AgentLogsKey
    | AnalysisModeKey
    | ImageGenerationErrorKey

  /** The key's name in the dict. */
  function KeyName(k: Key): string {
    match k
    case OriginalImageKey => "original_image"
    case UserQueryKey => "user_query"
    case VisualAnalysisKey => "visual_analysis"
    case TrendSummaryKey => "trend_summary"
    case FinalReportKey => "final_report"
    case GeneratedImageUrlKey => "generated_image_url"
    case GenerationPromptKey => "generation_prompt"
    case AgentLogsKey => "agent_logs"
    case AnalysisModeKey => "analysis_mode"
    case ImageGenerationErrorKey => "image_generation_error"
  }

  /** Distinct keys have distinct names. */
  lemma KeyNamesDistinct(a: Key, b: Key)
    ensures KeyName(a) == KeyName(b) <==> a == b
  {
  }

  const AllKeys: set<Key> := {OriginalImageKey, UserQueryKey, VisualAnalysisKey, TrendSummaryKey, FinalReportKey, GeneratedImageUrlKey, GenerationPromptKey, AgentLogsKey, AnalysisModeKey, ImageGenerationErrorKey}

  /** key in state. */
  predicate Has(s: State, k: Key) {
    match k
    case OriginalImageKey => s.originalImage.Some?
    case UserQueryKey => s.userQuery.Some?
    case VisualAnalysisKey => s.visualAnalysis.Some?
    case TrendSummaryKey => s.trendSummary.Some?
    case FinalReportKey => s.finalReport.Some?
    case GeneratedImageUrlKey => s.generatedImageUrl.Some?
    case GenerationPromptKey => s.generationPrompt.Some?
    case AgentLogsKey => s.agentLogs.Some?
    case AnalysisModeKey => s.analysisMode.Some?
    case ImageGenerationErrorKey => s.imageGenerationError.Some?
  }

  /** The keys present in s are exactly ks. */
  predicate HasExactly(s: State, ks: set<Key>) {
    forall k :: Has(s, k) <==> k in ks
  }

  lemma HasWithLogs(s: State, logs: seq<LogEntry>)
    ensures forall k :: Has(s.(agentLogs := Some(logs)), k) <==> Has(s, k) || k == AgentLogsKey
  {
  }

  /** The log list, or [] when the key is absent (state.get("agent_logs", [])). */
  function Logs(s: State): seq<LogEntry> {
    s.agentLogs.GetOr([])
  }

  function Pick<T>(current: Option<T>, update: Option<T>): Option<T> {
    if update.Some? then update else current
  }

  /** a and b hold the same value under key k (both absent counts as the same). */
  predicate SameAt(a: State, b: State, k: Key) {
    match k
    case OriginalImageKey => a.originalImage == b.originalImage
    case UserQueryKey => a.userQuery == b.userQuery
    case VisualAnalysisKey => a.visualAnalysis == b.visualAnalysis
    case TrendSummaryKey => a.trendSummary == b.trendSummary
    case FinalReportKey => a.finalReport == b.finalReport
    case GeneratedImageUrlKey => a.generatedImageUrl == b.generatedImageUrl
    case GenerationPromptKey => a.generationPrompt == b.generationPrompt
    case AgentLogsKey => a.agentLogs == b.agentLogs
    case AnalysisModeKey => a.analysisMode == b.analysisMode
    case ImageGenerationErrorKey => a.imageGenerationError == b.imageGenerationError
  }

  /** How the graph applies a stage's update: every key the update carries replaces
      the state's value (the schema declares no reducers), every other key is kept. */
  function Merge(s: State, u: State): (r: State)
    ensures forall k :: Has(r, k) <==> Has(s, k) || Has(u, k)
    ensures forall k :: Has(u, k) ==> SameAt(r, u, k)
    ensures forall k :: !Has(u, k) ==> SameAt(r, s, k)
  {
    State(
      Pick(s.originalImage, u.originalImage),
      Pick(s.userQuery, u.userQuery),
      Pick(s.visualAnalysis, u.visualAnalysis),
      Pick(s.trendSummary, u.trendSummary),
      Pick(s.finalReport, u.finalReport),
      Pick(s.generatedImageUrl, u.generatedImageUrl),
      Pick(s.generationPrompt, u.generationPrompt),
      Pick(s.agentLogs, u.agentLogs),
      Pick(s.analysisMode, u.analysisMode),
      Pick(s.imageGenerationError, u.imageGenerationError))
  }

  /** state.get("analysis_mode", "deep"). */
  function ModeOf(s: State): string {
    s.analysisMode.GetOr("deep")
  }

  /** A model of the wall clock: the timestamp given to the log entry at each position. */
  type Clock = nat -> string
}

=== FILE: supervisor.dfy ===
/** build_graph and its execution: four nodes joined by unconditional edges, run from
    the entry point until END, each node's update merged into the state.

    The run is defined for any node functions; what it guarantees follows from a small
    contract on each node's update (StageContract), and the four stages meet it
    (NodesConform). */
module Supervisor {
  import opened Wrappers
  import opened Text
  import opened AgentState
  import opened AgentLogs
  import MultiModel
  import Trending
  import Analysis

  datatype Node = AnalyzeImageNode | FetchTrendsNode | SynthesizeAdviceNode | GenerateOutfitNode | EndNode

  /** The node names registered with add_node. */
  function NodeName(n: Node): string {
    match n
    case AnalyzeImageNode => "analyze_image"
    case FetchTrendsNode => "fetch_trends"
    case SynthesizeAdviceNode => "synthesize_advice"
    case GenerateOutfitNode => "generate_outfit"
    case EndNode => "__end__"
  }

  const EntryPoint: Node := AnalyzeImageNode

  /** The edge table: every node has exactly one outgoing edge and none is conditional. */
  function Successor(n: Node): Node
    requires n != EndNode
  {
    match n
    case AnalyzeImageNode => FetchTrendsNode
    case FetchTrendsNode => SynthesizeAdviceNode
    case SynthesizeAdviceNode => GenerateOutfitNode
    case GenerateOutfitNode => EndNode
  }

  /** Number of edges from a node to END. */
  function StepsToEnd(n: Node): (r: nat)
    ensures r <= 4
    ensures r == 0 <==> n == EndNode
  {
    match n
    case AnalyzeImageNode => 4
    case FetchTrendsNode => 3
    case SynthesizeAdviceNode => 2
    case GenerateOutfitNode => 1
    case EndNode => 0
  }

  lemma EdgeApproachesEnd(n: Node)
    requires n != EndNode
    ensures StepsToEnd(Successor(n)) == StepsToEnd(n) - 1
  {
  }

  /** The nodes visited from n, in order, before END is reached. */
  function Trace(n: Node): seq<Node>
    decreases StepsToEnd(n)
  {
    if n == EndNode then [] else EdgeApproachesEnd(n); [n] + Trace(Successor(n))
  }

  /** The graph is a single path: the entry point is analyze_image, the four stages are
      visited once each in the fixed order, and generate_outfit is the only node with
      an edge to END. */
  lemma GraphIsLinear()
    ensures Trace(EntryPoint) == [AnalyzeImageNode, FetchTrendsNode, SynthesizeAdviceNode, GenerateOutfitNode]
    ensures forall n :: n != EndNode ==> (Successor(n) == EndNode <==> n == GenerateOutfitNode)
    ensures forall n :: n != EndNode ==> n in Trace(EntryPoint)
    ensures NodeName(EntryPoint) == "analyze_image"
    ensures var t := Trace(EntryPoint);
      [NodeName(t[0]), NodeName(t[1]), NodeName(t[2]), NodeName(t[3])] == ["analyze_image", "fetch_trends", "synthesize_advice", "generate_outfit"]
  {
  }

  // ------------------------------------------------------------- the run

  /** The function registered for each node; END has none and contributes no update. */
  type NodeFunctions = (Node, State) -> State

  /** Run from node n: apply n's function, merge its update into the state, follow
      the edge. */
  function RunFrom(n: Node, s: State, step: NodeFunctions): State
    decreases StepsToEnd(n)
  {
    if n == EndNode then s else EdgeApproachesEnd(n); RunFrom(Successor(n), Merge(s, step(n, s)), step)
  }

  /** For any node functions, a run from the entry point applies the four stages once
      each, in order, each to the state its predecessor left. */
  lemma RunFromEntry(s: State, step: NodeFunctions)
    ensures var s1 := Merge(s, step(AnalyzeImageNode, s));
      var s2 := Merge(s1, step(FetchTrendsNode, s1));
      var s3 := Merge(s2, step(SynthesizeAdviceNode, s2));
      RunFrom(EntryPoint, s, step) == Merge(s3, step(GenerateOutfitNode, s3))
  {
  }

  /** The agent name each stage writes its log entries under. */
  function AgentOf(n: Node): string {
    match n
    case AnalyzeImageNode => "vision"
    case FetchTrendsNode => "trends"
    case SynthesizeAdviceNode => "advisor"
    case GenerateOutfitNode => "generator"
    case EndNode => ""
  }

  /** The keys a node's update carries. generate_outfit's URL and error are never both
      set and never both None. */
  predicate UpdateShape(n: Node, u: State) {
    match n
    case AnalyzeImageNode =>
      u == NoKeys.(visualAnalysis := u.visualAnalysis, agentLogs := u.agentLogs)
      && u.visualAnalysis.Some? && u.agentLogs.Some?
    case FetchTrendsNode =>
      u == NoKeys.(trendSummary := u.trendSummary, agentLogs := u.agentLogs)
      && u.trendSummary.Some? && u.agentLogs.Some?
    case SynthesizeAdviceNode =>
      u == NoKeys.(finalReport := u.finalReport, agentLogs := u.agentLogs)
      && u.finalReport.Some? && u.agentLogs.Some?
    case GenerateOutfitNode =>
      u == NoKeys.(generatedImageUrl := u.generatedImageUrl, generationPrompt := u.generationPrompt,
        imageGenerationError := u.imageGenerationError, agentLogs := u.agentLogs)
      && u.generatedImageUrl.Some? && u.generationPrompt.Some? && u.imageGenerationError.Some? && u.agentLogs.Some?
      && (u.generatedImageUrl.value.None? <==> u.imageGenerationError.value.Some?)
    case EndNode => u == NoKeys
  }

  /** after extends before by one stage's two entries: both written by agent, the
      first at level "info". */
  predicate AppendsStagePair(before: seq<LogEntry>, after: seq<LogEntry>, agent: string) {
    && |after| == |before| + 2
    && after[..|before|] == before
    && after[|before|].agent == agent && after[|before|].level == DefaultLevel
    && after[|before| + 1].agent == agent
  }

  /** What the run relies on from node n's update u of state s. */
  predicate StageContract(n: Node, s: State, u: State) {
    UpdateShape(n, u) && (n != EndNode ==> AppendsStagePair(Logs(s), Logs(u), AgentOf(n)))
  }

  ghost predicate Conforms(step: NodeFunctions) {
    forall n, s :: StageContract(n, s, step(n, s))
  }

  /** The keys the four stages write between them. */
  const StageOutputs: set<Key> := {
    VisualAnalysisKey, TrendSummaryKey, FinalReportKey, GeneratedImageUrlKey,
    GenerationPromptKey, ImageGenerationErrorKey, AgentLogsKey
  }

  /** Each key ends up with the value its one writer gave it; the request's inputs are
      never written; the URL and the error are exclusive at the end of the run. */
  lemma RunFields(s: State, step: NodeFunctions)
    requires Conforms(step)
    ensures var s1 := Merge(s, step(AnalyzeImageNode, s));
      var s2 := Merge(s1, step(FetchTrendsNode, s1));
      var s3 := Merge(s2, step(SynthesizeAdviceNode, s2));
      var u := step(GenerateOutfitNode, s3);
      var r := RunFrom(EntryPoint, s, step);
      && r.originalImage == s.originalImage && r.userQuery == s.userQuery && r.analysisMode == s.analysisMode
      && r.visualAnalysis == step(AnalyzeImageNode, s).visualAnalysis
      && r.trendSummary == step(FetchTrendsNode, s1).trendSummary
      && r.finalReport == step(SynthesizeAdviceNode, s2).finalReport
      && r.generatedImageUrl == u.generatedImageUrl
      && r.generationPrompt == u.generationPrompt
      && r.imageGenerationError == u.imageGenerationError
      && r.generatedImageUrl.Some? && r.imageGenerationError.Some?
      && (r.generatedImageUrl.value.None? <==> r.imageGenerationError.value.Some?)
  {
    RunFromEntry(s, step);
    var s1 := Merge(s, step(AnalyzeImageNode, s));
    var s2 := Merge(s1, step(FetchTrendsNode, s1));
    var s3 := Merge(s2, step(SynthesizeAdviceNode, s2));
    assert StageContract(AnalyzeImageNode, s, step(AnalyzeImageNode, s));
    assert StageContract(FetchTrendsNode, s1, step(FetchTrendsNode, s1));
    assert StageContract(SynthesizeAdviceNode, s2, step(SynthesizeAdviceNode, s2));
    assert StageContract(GenerateOutfitNode, s3, step(GenerateOutfitNode, s3));
  }

  /** After a run the state holds every key it held before and every key a stage
      writes, and no other. */
  lemma RunKeys(s: State, step: NodeFunctions)
    requires Conforms(step)
    ensures forall k :: Has(RunFrom(EntryPoint, s, step), k) <==> Has(s, k) || k in StageOutputs
  {
    RunFromEntry(s, step);
    var s1 := Merge(s, step(AnalyzeImageNode, s));
    var s2 := Merge(s1, step(FetchTrendsNode, s1));
    var s3 := Merge(s2, step(SynthesizeAdviceNode, s2));
    assert StageContract(AnalyzeImageNode, s, step(AnalyzeImageNode, s));
    assert StageContract(FetchTrendsNode, s1, step(FetchTrendsNode, s1));
    assert StageContract(SynthesizeAdviceNode, s2, step(SynthesizeAdviceNode, s2));
    assert StageContract(GenerateOutfitNode, s3, step(GenerateOutfitNode, s3));
  }

  const StageAgents := ["vision", "trends", "advisor", "generator"]

  /** A run appends exactly eight entries and changes none of the earlier ones: two per
      stage, in stage order, the first of each pair at level "info". */
  lemma RunLogs(s: State, step: NodeFunctions)
    requires Conforms(step)
    ensures var before, after := Logs(s), Logs(RunFrom(EntryPoint, s, step));
      && |after| == |before| + 8
      && after[..|before|] == before
      && (forall k :: 0 <= k < 4 ==>
        && after[|before| + 2 * k].agent == StageAgents[k]
        && after[|before| + 2 * k + 1].agent == StageAgents[k]
        && after[|before| + 2 * k].level == DefaultLevel)
  {
    RunFromEntry(s, step);
    var s1 := Merge(s, step(AnalyzeImageNode, s));
    var s2 := Merge(s1, step(FetchTrendsNode, s1));
    var s3 := Merge(s2, step(SynthesizeAdviceNode, s2));
    var r := Merge(s3, step(GenerateOutfitNode, s3));
    assert StageContract(AnalyzeImageNode, s, step(AnalyzeImageNode, s));
    assert StageContract(FetchTrendsNode, s1, step(FetchTrendsNode, s1));
    assert StageContract(SynthesizeAdviceNode, s2, step(SynthesizeAdviceNode, s2));
    assert StageContract(GenerateOutfitNode, s3, step(GenerateOutfitNode, s3));
    var n := |Logs(s)|;
    var after := Logs(r);
    assert Logs(s1) == Logs(step(AnalyzeImageNode, s));
    assert Logs(s2) == Logs(step(FetchTrendsNode, s1));
    assert Logs(s3) == Logs(step(SynthesizeAdviceNode, s2));
    assert after == Logs(step(GenerateOutfitNode, s3));
    assert after[..n + 6] == Logs(s3);
    assert after[..n + 4] == Logs(s2) by { assert after[..n + 4] == Logs(s3)[..n + 4]; }
    assert after[..n + 2] == Logs(s1) by { assert after[..n + 2] == Logs(s2)[..n + 2]; }
    assert after[..n] == Logs(s) by { assert after[..n] == Logs(s1)[..n]; }
    forall k | 0 <= k < 4
      ensures after[n + 2 * k].agent == StageAgents[k] && after[n + 2 * k + 1].agent == StageAgents[k]
      ensures after[n + 2 * k].level == DefaultLevel
    {
      if k == 0 {
        assert after[n] == Logs(s1)[n] && after[n + 1] == Logs(s1)[n + 1];
      } else if k == 1 {
        assert after[n + 2] == Logs(s2)[n + 2] && after[n + 3] == Logs(s2)[n + 3];
      } else if k == 2 {
        assert after[n + 4] == Logs(s3)[n + 4] && after[n + 5] == Logs(s3)[n + 5];
      }
    }
  }

  // ----------------------------------------------------- the compiled graph

  /** The model calls behind the four stages. */
  datatype Oracles = Oracles(
    vision: MultiModel.VisionCall,
    trends: Trending.TrendCall,
    advice: Analysis.AdviceCall,
    image: MultiModel.ImageBackend)

  /** The function registered for a node; END contributes no update. */
  function Stage(n: Node, s: State, o: Oracles, clock: Clock): State {
    match n
    case AnalyzeImageNode => MultiModel.AnalyzeImage(s, o.vision, clock)
    case FetchTrendsNode => Trending.FetchTrends(s, o.trends, clock)
    case SynthesizeAdviceNode => Analysis.SynthesizeAdvice(s, o.advice, clock)
    case GenerateOutfitNode => MultiModel.GenerateOutfit(s, o.image, clock)
    case EndNode => NoKeys
  }

  function Nodes(o: Oracles, clock: Clock): NodeFunctions {
    (n: Node, s: State) => Stage(n, s, o, clock)
  }

  /** agent_graph.invoke(state). */
  function Invoke(s: State, o: Oracles, clock: Clock): State {
    RunFrom(EntryPoint, s, Nodes(o, clock))
  }

  /** The states after the first three stages. */
  function AfterVision(s: State, o: Oracles, clock: Clock): State {
    Merge(s, MultiModel.AnalyzeImage(s, o.vision, clock))
  }

  function AfterTrends(s: State, o: Oracles, clock: Clock): State {
    var s1 := AfterVision(s, o, clock);
    Merge(s1, Trending.FetchTrends(s1, o.trends, clock))
  }

  function AfterAdvice(s: State, o: Oracles, clock: Clock): State {
    var s2 := AfterTrends(s, o, clock);
    Merge(s2, Analysis.SynthesizeAdvice(s2, o.advice, clock))
  }

  lemma VisionConforms(s: State, o: Oracles, clock: Clock)
    ensures Nodes(o, clock)(AnalyzeImageNode, s) == MultiModel.AnalyzeImage(s, o.vision, clock)
    ensures StageContract(AnalyzeImageNode, s, Nodes(o, clock)(AnalyzeImageNode, s))
  {
    match MultiModel.VisionOutcome(s, o.vision)
    case Ok(_) =>
    case Fail(_) =>
  }

  lemma TrendsConform(s: State, o: Oracles, clock: Clock)
    ensures Nodes(o, clock)(FetchTrendsNode, s) == Trending.FetchTrends(s, o.trends, clock)
    ensures StageContract(FetchTrendsNode, s, Nodes(o, clock)(FetchTrendsNode, s))
  {
    var i := Trending.InputsOf(s);
    match o.trends(i.genderStyle, i.occasion, i.userQuery)
    case Ok(_) =>
    case Fail(_) =>
  }

  lemma AdviceConforms(s: State, o: Oracles, clock: Clock)
    ensures Nodes(o, clock)(SynthesizeAdviceNode, s) == Analysis.SynthesizeAdvice(s, o.advice, clock)
    ensures StageContract(SynthesizeAdviceNode, s, Nodes(o, clock)(SynthesizeAdviceNode, s))
  {
    match o.advice(Analysis.RequestOf(s))
    case Ok(_) =>
    case Fail(_) =>
  }

  lemma GeneratorConforms(s: State, o: Oracles, clock: Clock)
    ensures Nodes(o, clock)(GenerateOutfitNode, s) == MultiModel.GenerateOutfit(s, o.image, clock)
    ensures StageContract(GenerateOutfitNode, s, Nodes(o, clock)(GenerateOutfitNode, s))
  {
  }

  /** The four stages meet the contract the run relies on. */
  lemma NodesConform(o: Oracles, clock: Clock)
    ensures Conforms(Nodes(o, clock))
  {
    forall n, s ensures StageContract(n, s, Nodes(o, clock)(n, s)) {
      match n
      case AnalyzeImageNode => VisionConforms(s, o, clock);
      case FetchTrendsNode => TrendsConform(s, o, clock);
      case SynthesizeAdviceNode => AdviceConforms(s, o, clock);
      case GenerateOutfitNode => GeneratorConforms(s, o, clock);
      case EndNode =>
    }
  }

  /** A request's run: the inputs are never written, each output key holds what its
      stage produced from the state its predecessors left, and exactly one of the
      image URL and the generation error is set. */
  lemma InvokeOutcome(s: State, o: Oracles, clock: Clock)
    ensures var s1, s2, s3 := AfterVision(s, o, clock), AfterTrends(s, o, clock), AfterAdvice(s, o, clock);
      var u := MultiModel.GenerateOutfit(s3, o.image, clock);
      var r := Invoke(s, o, clock);
      && r.originalImage == s.originalImage && r.userQuery == s.userQuery && r.analysisMode == s.analysisMode
      && r.visualAnalysis == MultiModel.AnalyzeImage(s, o.vision, clock).visualAnalysis
      && r.trendSummary == Trending.FetchTrends(s1, o.trends, clock).trendSummary
      && r.finalReport == Analysis.SynthesizeAdvice(s2, o.advice, clock).finalReport
      && r.generatedImageUrl == u.generatedImageUrl
      && r.generationPrompt == u.generationPrompt
      && r.imageGenerationError == u.imageGenerationError
      && r.generatedImageUrl.Some? && r.imageGenerationError.Some?
      && (r.generatedImageUrl.value.None? <==> r.imageGenerationError.value.Some?)
  {
    var step := Nodes(o, clock);
    NodesConform(o, clock);
    RunFields(s, step);
    VisionConforms(s, o, clock);
    var s1 := Merge(s, step(AnalyzeImageNode, s));
    TrendsConform(s1, o, clock);
    var s2 := Merge(s1, step(FetchTrendsNode, s1));
    AdviceConforms(s2, o, clock);
    var s3 := Merge(s2, step(SynthesizeAdviceNode, s2));
    GeneratorConforms(s3, o, clock);
  }

  /** A request's run appends eight log entries, two per stage in stage order. */
  lemma InvokeLogs(s: State, o: Oracles, clock: Clock)
    ensures var before, after := Logs(s), Logs(Invoke(s, o, clock));
      && |after| == |before| + 8
      && after[..|before|] == before
      && (forall k :: 0 <= k < 4 ==>
        && after[|before| + 2 * k].agent == StageAgents[k]
        && after[|before| + 2 * k + 1].agent == StageAgents[k]
        && after[|before| + 2 * k].level == DefaultLevel)
  {
    NodesConform(o, clock);
    RunLogs(s, Nodes(o, clock));
  }

  /** What the request handler relies on: the request fields are kept, the stages add
      eight log entries in graph order, and exactly one of the image URL and the image
      error is set. */
  lemma InvokeSummary(s: State, o: Oracles, clock: Clock)
    ensures var r := Invoke(s, o, clock);
      && r.userQuery == s.userQuery && r.analysisMode == s.analysisMode
      && |Logs(r)| == |Logs(s)| + 8
      && (forall k :: 0 <= k < 4 ==>
        Logs(r)[|Logs(s)| + 2 * k].agent == StageAgents[k] && Logs(r)[|Logs(s)| + 2 * k + 1].agent == StageAgents[k])
      && r.generatedImageUrl.Some? && r.imageGenerationError.Some?
      && (r.generatedImageUrl.value.None? <==> r.imageGenerationError.value.Some?)
  {
    InvokeOutcome(s, o, clock);
    InvokeLogs(s, o, clock);
  }

  /** A request's run leaves every key it was given and adds every stage output. */
  lemma InvokeKeys(s: State, o: Oracles, clock: Clock)
    ensures forall k :: Has(Invoke(s, o, clock), k) <==> Has(s, k) || k in StageOutputs
  {
    NodesConform(o, clock);
    RunKeys(s, Nodes(o, clock));
  }

  /** There is no mode in which the trend stage is skipped: in every analysis mode the
      final trend summary is the generator's answer for the post-vision inputs, or the
      fallback sentence for them when the generator fails. */
  lemma TrendsInEveryMode(s: State, o: Oracles, clock: Clock)
    ensures var i := Trending.InputsOf(AfterVision(s, o, clock));
      var call := o.trends(i.genderStyle, i.occasion, i.userQuery);
      Invoke(s, o, clock).trendSummary == Some(if call.Ok? then call.payload else Trending.Fallback(i.genderStyle, i.occasion))
  {
    InvokeOutcome(s, o, clock);
  }

  /** A failed vision call leaves "unknown" features, so a failed trend call falls
      back to the sentence for an "unknown unknown" outfit. */
  lemma FailedVisionAndTrends(s: State, o: Oracles, clock: Clock)
    requires forall model, image, query :: o.vision(model, image, query).Fail?
    requires forall style, occasion, query :: o.trends(style, occasion, query).Fail?
    ensures var s2 := AfterTrends(s, o, clock);
      && s2.visualAnalysis.Some? && DictKeys(s2.visualAnalysis.value) == MultiModel.FeatureKeys + ["error"]
      && s2.trendSummary == Some(Trending.Fallback("unknown", "unknown"))
  {
    var s1 := AfterVision(s, o, clock);
    var msg := MultiModel.VisionOutcome(s, o.vision).msg;
    assert s1.visualAnalysis == Some(MultiModel.UnknownDict(msg));
    MultiModel.UnknownLookup(msg, "gender_style", "unisex");
    MultiModel.UnknownLookup(msg, "occasion", "casual");
  }

  /** A failed image call leaves no image, whatever the state. */
  lemma FailedGeneration(s: State, o: Oracles, clock: Clock)
    requires forall model, messages :: o.image.generate(model, messages).Fail?
    ensures var u := MultiModel.GenerateOutfit(s, o.image, clock);
      u.generatedImageUrl == Some(None) && u.imageGenerationError == Some(Some(MultiModel.NoContentError))
  {
    assert MultiModel.GenerateImage(MultiModel.PromptOf(s), s.originalImage, s.finalReport.GetOr(""), o.image).None?;
  }

  /** When every model call fails the run still completes: the analysis is all
      "unknown" with an error, the trend summary is the fallback for an "unknown unknown"
      outfit, the report is the fixed apology, and generation reports no content. */
  lemma AllCallsFail(s: State, o: Oracles, clock: Clock)
    requires forall model, image, query :: o.vision(model, image, query).Fail?
    requires forall style, occasion, query :: o.trends(style, occasion, query).Fail?
    requires forall request :: o.advice(request).Fail?
    requires forall model, messages :: o.image.generate(model, messages).Fail?
    ensures var r := Invoke(s, o, clock);
      && r.visualAnalysis.Some? && DictKeys(r.visualAnalysis.value) == MultiModel.FeatureKeys + ["error"]
      && r.trendSummary == Some(Trending.Fallback("unknown", "unknown"))
      && r.finalReport == Some(Analysis.FallbackAdvice)
      && r.generatedImageUrl == Some(None)
      && r.imageGenerationError == Some(Some(MultiModel.NoContentError))
  {
    InvokeOutcome(s, o, clock);
    FailedVisionAndTrends(s, o, clock);
    FailedGeneration(AfterAdvice(s, o, clock), o, clock);
  }
}

=== FILE: text.dfy ===
/** Character-level helpers on Python strings, modelled as seq<char>. */
module Text {

  /** Byte values, for the image payloads (Python bytes). */
  type Byte = x: int | 0 <= x < 256
  type Bytes = seq<Byte>

  /** Case folding as far as it yields ASCII: 'A'..'Z' map to 'a'..'z' and the Kelvin
      sign U+212A maps to 'k', as in Python's str.lower(). Every other character is
      kept; Python maps some of them to other non-ASCII characters, which can never
      equal an ASCII word either way. */
  function LowerChar(c: char): char {
    if 'A' <= c <= 'Z' then (c as int + 32) as char
    else if c == '\U{212A}' then 'k'
    else c
  }

  /** str.lower(), one character at a time. */
  function Lower(s: string): (r: string)
    ensures |r| == |s|
  {
    seq(|s|, i requires 0 <= i < |s| => LowerChar(s[i]))
  }

  predicate IsPrefix(p: string, s: string) {
    |p| <= |s| && s[..|p|] == p
  }

  lemma PrefixOfConcat(a: string, b: string)
    ensures IsPrefix(a, a + b)
  {
    assert (a + b)[..|a|] == a;
  }

  /** The slice s[:n]. */
  function Take(s: string, n: nat): (r: string)
    ensures |r| <= n && IsPrefix(r, s)
    ensures |s| <= n ==> r == s
    ensures n <= |s| ==> |r| == n
  {
    if |s| <= n then s else s[..n]
  }

  /** s.split(c)[0]: the text before the first c, or all of s when c does not occur. */
  function BeforeFirst(s: string, c: char): (r: string)
    ensures IsPrefix(r, s)
    ensures c !in r
    ensures r == s || s[|r|] == c
  {
    if |s| == 0 then ""
    else if s[0] == c then ""
    else [s[0]] + BeforeFirst(s[1..], c)
  }

  /** s.rsplit(c, 1)[-1]: the text after the last c, or all of s when c does not occur. */
  function AfterLast(s: string, c: char): (r: string)
    ensures |r| <= |s| && r == s[|s| - |r|..]
    ensures c !in r
    ensures |r| < |s| ==> s[|s| - |r| - 1] == c
    ensures c !in s ==> r == s
  {
    if |s| == 0 then ""
    else if s[|s| - 1] == c then ""
    else AfterLast(s[..|s| - 1], c) + [s[|s| - 1]]
  }

  predicate IsSuffix(p: string, s: string) {
    |p| <= |s| && s[|s| - |p|..] == p
  }

  /** A text framed by a head and a tail starts with the head and ends with the tail. */
  lemma Framed(head: string, middle: string, tail: string)
    ensures IsPrefix(head, head + (middle + tail)) && IsSuffix(tail, head + (middle + tail))
  {
    assert (head + (middle + tail))[..|head|] == head;
    assert (head + (middle + tail))[|head| + |middle|..] == tail;
  }

  /** sep.join(parts). */
  function Join(parts: seq<string>, sep: string): string {
    if |parts| == 0 then ""
    else if |parts| == 1 then parts[0]
    else parts[0] + sep + Join(parts[1..], sep)
  }
}

=== FILE: trending.dfy ===
/** fetch_trends: the trend stage. The trend generator is an oracle; a failure is
    replaced by a fixed sentence built from the outfit's style and occasion. */
module Trending {
  import opened Wrappers
  import opened Text
  import opened Json
  import opened AgentState
  import opened AgentLogs

  /** The trend generator, given gender_style, occasion and user_query. */
  type TrendCall = (string, string, string) -> Outcome<string>

  /** The generator's inputs: style and occasion read from visual_analysis with
      defaults "unisex" and "casual", and the query (default ""). */
  datatype TrendInputs = TrendInputs(genderStyle: string, occasion: string, userQuery: string)

  function InputsOf(s: State): (r: TrendInputs)
    ensures s.userQuery.None? ==> r.userQuery == ""
    ensures s.userQuery.Some? ==> r.userQuery == s.userQuery.value
    ensures GetsOr(s.visualAnalysis.GetOr([]), "gender_style", "unisex", r.genderStyle)
    ensures GetsOr(s.visualAnalysis.GetOr([]), "occasion", "casual", r.occasion)
  {
    var visual := s.visualAnalysis.GetOr([]);
    TrendInputs(Lookup(visual, "gender_style", "unisex"), Lookup(visual, "occasion", "casual"), s.userQuery.GetOr(""))
  }

  const FallbackHead := "Current fashion trends for "
  const FallbackTail := " focus on quality fabrics, versatile pieces, and sustainable choices. Neutral colors and classic silhouettes remain popular."

  /** The generic trend text used when the generator fails. */
  function Fallback(genderStyle: string, occasion: string): (r: string)
    ensures IsPrefix(FallbackHead + genderStyle + " " + occasion + " wear", r)
  {
    var head := FallbackHead + genderStyle + " " + occasion + " wear";
    PrefixOfConcat(head, FallbackTail);
    head + FallbackTail
  }

  /** How many characters of the summary go into the log. */
  const SummaryLogLimit := 300

  function FetchTrends(s: State, call: TrendCall, clock: Clock): (u: State)
    ensures u == NoKeys.(trendSummary := u.trendSummary, agentLogs := u.agentLogs)
    ensures u.trendSummary.Some? && u.agentLogs.Some?
    ensures var inputs := InputsOf(s);
      match call(inputs.genderStyle, inputs.occasion, inputs.userQuery)
      case Ok(summary) =>
        && u.trendSummary == Some(summary)
        && AppendsPair(Logs(s), Logs(u), "trends", "info", "info")
        && Logs(u)[|Logs(s)| + 1].details == TextDetails(Take(summary, SummaryLogLimit))
      case Fail(msg) =>
        && u.trendSummary == Some(Fallback(inputs.genderStyle, inputs.occasion))
        && AppendsPair(Logs(s), Logs(u), "trends", "info", "warning")
        && Logs(u)[|Logs(s)| + 1].details == TextDetails(msg)
  {
    var inputs := InputsOf(s);
    var s1 := AppendAgentLog(s, "trends", "Collecting trend context", DefaultLevel,
      DictDetails([("gender_style", JString(inputs.genderStyle)), ("occasion", JString(inputs.occasion)), ("mode", JString(ModeOf(s)))]), clock);
    var (summary, s2) :=
      match call(inputs.genderStyle, inputs.occasion, inputs.userQuery)
      case Ok(summary) =>
        (summary, AppendAgentLog(s1, "trends", "Produced trend summary", DefaultLevel, TextDetails(Take(summary, SummaryLogLimit)), clock))
      case Fail(msg) =>
        (Fallback(inputs.genderStyle, inputs.occasion),
         AppendAgentLog(s1, "trends", "Failed to fetch trends; using fallback", "warning", TextDetails(msg), clock));
    NoKeys.(trendSummary := Some(summary), agentLogs := s2.agentLogs)
  }


  /** The analysis mode selects nothing in this stage: with any other mode the summary
      and the log are the same, except for the mode recorded in the first entry's details.
      The timestamps agree because the clock gives a timestamp per log position, and
      both runs append at the same positions. */
  lemma ModeOnlyReachesDetails(s: State, mode: string, call: TrendCall, clock: Clock)
    ensures var u, u' := FetchTrends(s, call, clock), FetchTrends(s.(analysisMode := Some(mode)), call, clock);
      && u'.trendSummary == u.trendSummary
      && |Logs(u')| == |Logs(u)|
      && (forall i :: 0 <= i < |Logs(u)| && i != |Logs(s)| ==> Logs(u')[i] == Logs(u)[i])
      && Logs(u')[|Logs(s)|].(details := NoDetails) == Logs(u)[|Logs(s)|].(details := NoDetails)
  {
  }
}

=== FILE: wrappers.dfy ===
/** Failure-compatible wrappers shared by the whole model.
    - Option<T> stands for a Python value that may be None (or a dict key that may be absent).
    - Outcome<T> is what an external call delivers: a payload, or the text of the
      exception it raised (str(e)).
    - Result<T, E> is a validation result with a typed error. */
module Wrappers {

  datatype Option<+T> = None | Some(value: T) {

    /** The value in Some, or the given default (Python's dict.get(key, default)). */
    function GetOr(default: T): T {
      match this
      case Some(v) => v
      case None => default
    }
  }

  /** What an oracle standing in for a model call returns: the call's payload,
      or the message of the exception it raised. */
  datatype Outcome<+T> = Ok(payload: T) | Fail(msg: string)

  datatype Result<+T, +E> = Success(value: T) | Failure(error: E)
}
